=== FILE: README.md ===
# CRMS core, modelled in Dafny

CRMS is a customer-relationship system for a lodging business. It keeps
customers, their visit histories and a citizenship reference list. A React
client talks to a Go backend over JSON. This project models the parts of
the system whose behaviour is decided by its own logic rather than by the
UI toolkit or the database. It proves properties of each part.

The parts are:

- **The response normaliser and the typed gateways** (`Envelope`). These
  live in `apps/frontend/src/services/api.ts`. The backend answers in many
  shapes: a bare array, `{data}`, `{Message, token}`, `{Message, username}`,
  or an entity-specific key such as `customers` or `history`. Each answer is
  reshaped into one envelope. Each gateway operation then copies its own
  alias key onto `data`.
- **The customer form** (`CustomerForm`). This covers the `validateForm`
  rule chains, the submit decision, and the mapping of a thrown save error
  onto the form's error map. It also covers the default citizenship (the
  first `TWN` entry) and the date prefix used when a record is edited.
- **The customer list view** (`CustomerView`). This covers loading the
  list, the search and its well-formedness filter, and `safeCustomers`. It
  also covers the debounce gate, an event-driven state machine that decides
  when typing triggers a search.
- **The visit-history view** (`HistoryView`). This covers the guarded
  search by date, by date range or by customer. It also covers the filter
  plus the `Date` default that every shown entry passes, the load behaviour
  and the edit-date cut.
- **The session** (`Auth`). This covers restoring the session from the
  stored token on mount, `login` and `logout`.
- **The backend's integer-id visit-history service** (`HistoryService`).
  This covers listing, the lookups, and the guarded create, update and
  delete, each with the exact error texts. It also proves a row invariant
  that the commands preserve, and read-back properties of each command.
- **The backend's CORS middleware** (`Cors`). This covers the headers it
  sets, when it echoes the origin, and how it ends a preflight.

Supporting modules:

- `Common` holds `Option` and the Go-style `Result`.
- `Text` holds JavaScript string semantics: `trim` and `\s`, `includes`,
  string `<`, ASCII upper-casing and number rendering.
- `JsonValue` holds JSON values with JavaScript truthiness, `'k' in v` and
  `String(v)`.

### How the model reads the code

- **Transport.** Every network call is a parameter: the `Outcome` of the
  call. This is either a parsed JSON body or a thrown error with its
  message. A function models what the code does with that outcome.
- **Time.** The debounce timer becomes a `TimerFired` event. A date parser
  and "today" are supplied in a `Context`.
- **Storage.** Local storage is the `stored` field of the session.
- **The Go repository.** The repository is only seen through what the
  service relies on:
  - a lookup with no match hands back its probe, so an unknown customer
    has an empty name and an unknown history has customer id 0;
  - a failing database makes every repository call fail with the same
    error.

One observation follows from the client's code and is proved, not assumed.
`makeRequest` throws `HTTP error! status: N` on a non-success status. It
can also throw whatever `fetch` throws, or the parse error of
`response.json()` (api.ts:121) when a success body is not JSON. A status
error text never contains `NationalId`. So the
"This National ID already exists" branch of the save-error mapping cannot
fire on a status error: `CustomerForm.StatusFailureIsGeneral`. The backend
reports a duplicate customer with HTTP 200 and a `Message`, and the client
treats that as a successful save.

## Model

| member | source | states |
|---|---|---|
| Text.Trim | apps/frontend/src/components/CustomerManagement.tsx:37 | `trim` never lengthens a string and leaves no white space at either end of the result |
| Text.TrimIsInfix | apps/frontend/src/components/CustomerManagement.tsx:37 | `trim` removes only white space: the result is an infix of the input with only white space around it |
| Text.TrimEmptyIffAllSpace | apps/frontend/src/components/CustomerManagement.tsx:67 | `s.trim() === ''` holds exactly when every character of `s` is white space |
| Text.StrLessIrreflexive | apps/frontend/src/components/HistoryManagement.tsx:125 | string `<` is irreflexive, so two equal dates never fail the range check |
| Envelope.FirstPresent | apps/frontend/src/services/api.ts:89-94 | returns the index of the first alias key present; all earlier aliases are absent |
| Envelope.Normalize | apps/frontend/src/services/api.ts:74-98 | every answer becomes an envelope; any result without `data` is the input object itself |
| Envelope.NormalizeArray | apps/frontend/src/services/api.ts:75-77 | a bare array becomes `{Message: '', data: array}` |
| Envelope.NormalizeKeepsData | apps/frontend/src/services/api.ts:79 | an object with `data` passes through unchanged |
| Envelope.NormalizeUsername | apps/frontend/src/services/api.ts:81 | a `username` object keeps every key and gains `data = username`, which wins over `Message` and aliases |
| Envelope.NormalizeMessageOnly | apps/frontend/src/services/api.ts:82-88 | a message-only object passes through, so a `token` beside `Message` survives and no `data` appears |
| Envelope.NormalizeAlias | apps/frontend/src/services/api.ts:89-94 | otherwise the first alias present, in fixed priority order, becomes `data`, and all keys are kept |
| Envelope.NormalizeFallbackObject | apps/frontend/src/services/api.ts:95 | an object with no recognised key is wrapped whole under an empty `Message` |
| Envelope.FallbackMessageIsEmpty | apps/frontend/src/services/api.ts:83-95 | the `Message ?? ''` of the last branch is always `''`, because objects that carry `Message` leave earlier |
| Envelope.NormalizeScalar | apps/frontend/src/services/api.ts:97 | null, booleans, numbers and strings are wrapped as `data` under an empty `Message` |
| Envelope.EnvelopeIsFixedPoint | apps/frontend/src/services/api.ts:74-98 | the envelopes are exactly the fixed points of the normaliser |
| Envelope.NormalizeIdempotent | apps/frontend/src/services/api.ts:74-98 | normalising twice equals normalising once |
| Envelope.HttpErrorText | apps/frontend/src/services/api.ts:117-119 | the thrown status text contains no `N` |
| Envelope.HttpErrorNeverNamesNationalId | apps/frontend/src/services/api.ts:117-119 | a status error text never contains `NationalId` |
| Envelope.AliasOf | apps/frontend/src/services/api.ts:141-282 | each gateway copies one of the six alias keys, or none |
| Envelope.Respond | apps/frontend/src/services/api.ts:141-148 | a gateway's normalised, alias-corrected answer is still an envelope |
| Envelope.Call | apps/frontend/src/services/api.ts:101-125 | transport errors propagate unchanged; a parsed body is returned as the gateway's normalised, alias-corrected envelope `Respond(op, body)`, so every fact about `Respond` holds of the call |
| Envelope.GatewayAliasWins | apps/frontend/src/services/api.ts:162-169 | a truthy alias field becomes `data`, even over an existing `data` or `username` |
| Envelope.GatewayOtherwiseNormalizes | apps/frontend/src/services/api.ts:180-187 | without a truthy alias, a gateway answers what the normaliser answers |
| Envelope.SingleAliasBody | apps/frontend/src/services/api.ts:89-94 | a body holding only one alias yields `data` equal to that alias's value through every gateway |
| CustomerForm.BlankIffNoNonSpace | apps/frontend/src/components/CustomerManagement.tsx:67 | "blank" (empty or white space only) is the negation of "has a non-space character" |
| CustomerForm.NameError | apps/frontend/src/components/CustomerManagement.tsx:67-71 | silent exactly when the name has a non-space character and at most 100 characters; "required" exactly when blank |
| CustomerForm.GenderError | apps/frontend/src/components/CustomerManagement.tsx:74-78 | silent exactly for `Male`/`Female`; "required" exactly for the empty string |
| CustomerForm.BirthdayError | apps/frontend/src/components/CustomerManagement.tsx:81-93 | silent exactly for a parseable, non-future date from 1900 on; each message only after the earlier checks pass |
| CustomerForm.NationalIdError | apps/frontend/src/components/CustomerManagement.tsx:96-102 | silent exactly for non-blank ids of at most 100 characters from `[A-Za-z0-9-_]`; the charset message names a real bad character |
| CustomerForm.PhoneError | apps/frontend/src/components/CustomerManagement.tsx:105-110 | a blank phone passes; otherwise it must match the optional `+` and 7–20 class characters |
| CustomerForm.CarError | apps/frontend/src/components/CustomerManagement.tsx:113-118 | a blank car number passes; otherwise 1–20 letters, digits or hyphens |
| CustomerForm.CitizenshipError | apps/frontend/src/components/CustomerManagement.tsx:121-125 | silent exactly for a positive, listed id; "select" for id ≤ 0; "does not exist" for a positive, unlisted id |
| CustomerForm.AddressError | apps/frontend/src/components/CustomerManagement.tsx:128-130 | silent exactly when the address has at most 500 characters |
| CustomerForm.NoteError | apps/frontend/src/components/CustomerManagement.tsx:133-135 | silent exactly when the note has at most 1000 characters |
| CustomerForm.Validate | apps/frontend/src/components/CustomerManagement.tsx:63-139 | each field's error key is present exactly when its own chain fails, independent of the other fields |
| CustomerForm.ValidateEmptyIffValid | apps/frontend/src/components/CustomerManagement.tsx:137-138 | the form is accepted exactly when the customer meets every field rule |
| CustomerForm.EmptyErrorsMeansValid | apps/frontend/src/components/CustomerManagement.tsx:137-138 | an empty error map implies every field rule holds |
| CustomerForm.ValidMeansEmptyErrors | apps/frontend/src/components/CustomerManagement.tsx:137-138 | a customer meeting every rule produces no error |
| CustomerForm.FourFieldErrorsExample | apps/frontend/src/components/CustomerManagement.tsx:63-139 | an empty name, an unknown gender, a future birthday and an `@` in the id produce exactly those four errors |
| CustomerForm.ValidCustomerExample | apps/frontend/src/components/CustomerManagement.tsx:63-139 | a well-formed customer produces no error |
| CustomerForm.Submit | apps/frontend/src/components/CustomerManagement.tsx:208-226 | a save is blocked with the error map exactly when the form is invalid; otherwise an update when editing, else a create |
| CustomerForm.SaveResult | apps/frontend/src/components/CustomerManagement.tsx:227-236 | a thrown error gives exactly one entry: the national-id entry exactly when the text contains `NationalId`, else the general entry |
| CustomerForm.StatusFailureIsGeneral | apps/frontend/src/components/CustomerManagement.tsx:231-235 | a save that failed on an HTTP status always ends in the general error |
| CustomerForm.FirstTaiwan | apps/frontend/src/components/CustomerManagement.tsx:315 | returns the first entry whose code upper-cases to `TWN` |
| CustomerForm.DefaultCitizenship | apps/frontend/src/components/CustomerManagement.tsx:315 | returns the first TWN entry's id, else the first entry's id, else 0 (the same rule as the Add button at line 357) |
| CustomerForm.DefaultCitizenshipIsValid | apps/frontend/src/components/CustomerManagement.tsx:353-358 | for a non-empty list with positive ids, the default passes the citizenship rule |
| CustomerForm.DatePart | apps/frontend/src/components/HistoryManagement.tsx:86 | returns the longest `T`-free prefix, which stops at the first `T` |
| CustomerView.KeepWith | apps/frontend/src/components/CustomerManagement.tsx:292 | keeps exactly the objects with the identity keys, each as often as it occurs |
| CustomerView.KeepWithAppend | apps/frontend/src/components/CustomerManagement.tsx:292 | filtering preserves order: filtering a concatenation concatenates the filtered parts |
| CustomerView.KeepWithIdempotent | apps/frontend/src/components/CustomerManagement.tsx:343 | filtering an already filtered list changes nothing |
| CustomerView.Entries | apps/frontend/src/components/CustomerManagement.tsx:289-296 | a falsy or missing `data` gives nothing; otherwise the filtered list or single record |
| CustomerView.LoadCustomers | apps/frontend/src/components/CustomerManagement.tsx:141-169 | an array `data` becomes the list as-is; any other answer, and a thrown error, empties it |
| CustomerView.WithBirthday | apps/frontend/src/components/CustomerManagement.tsx:344 | every other key is kept; `Birthday` is the truthy value or `''` |
| CustomerView.KeepWithAll | apps/frontend/src/components/CustomerManagement.tsx:343 | a list whose objects all carry the identity keys passes the filter unchanged |
| CustomerView.RendersInFull | apps/frontend/src/components/CustomerManagement.tsx:342-344 | a list whose objects all carry an `Id` is rendered entry for entry, each with its `Birthday` defaulted |
| CustomerView.LoadedListRendersInFull | apps/frontend/src/components/CustomerManagement.tsx:153-154 | a loaded list whose customers all carry an `Id` is rendered in full and in order, customer i as the loaded customer i with only its `Birthday` defaulted |
| CustomerView.SafeCustomers | apps/frontend/src/components/CustomerManagement.tsx:342-344 | entry i is the i-th object with an `Id`, in order, with its `Birthday` defaulted by `WithBirthday`; nothing else is rendered, and every rendered entry has an `Id` and a truthy-or-empty `Birthday` |
| CustomerView.SearchAction | apps/frontend/src/components/CustomerManagement.tsx:267-287 | a blank term reloads; anything else searches for the non-empty trimmed term with the chosen kind |
| CustomerView.SearchSettle | apps/frontend/src/components/CustomerManagement.tsx:289-303 | a thrown error empties the list with "Search failed"; a response clears the error and shows the `Id`-carrying entries of its `data`, as `Entries` selects them |
| CustomerView.ArraySearch | apps/frontend/src/components/CustomerManagement.tsx:289-293 | an array answer shows exactly its objects with an `Id`, in order, each as often as it occurs |
| CustomerView.SearchResultsAllRender | apps/frontend/src/components/CustomerManagement.tsx:292-344 | every customer a search shows is rendered, in order, with only its `Birthday` defaulted |
| CustomerView.SingleRecordSearch | apps/frontend/src/components/CustomerManagement.tsx:289-293 | a single-record answer shows that record alone if it has an `Id`, else nothing |
| CustomerView.EmptySearch | apps/frontend/src/components/CustomerManagement.tsx:294-296 | a response without usable `data` shows an empty list and no error |
| CustomerView.Effect | apps/frontend/src/components/CustomerManagement.tsx:36-50 | a blank term reloads at once; a 1-character term issues nothing and arms no timer; 2 or more characters arm the timer (the error clearing is not modelled) |
| CustomerView.Step | apps/frontend/src/components/CustomerManagement.tsx:36-50 | a timer is only left pending for a term of at least 2 trimmed characters, or stays as it was |
| CustomerView.Mount | apps/frontend/src/components/CustomerManagement.tsx:30-50 | mounting loads the list twice, once from the mount effect and once from the debounce effect's run on the empty term, and leaves no timer |
| CustomerView.StepKeepsInvariant | apps/frontend/src/components/CustomerManagement.tsx:46-49 | no event leaves a timer pending for a term too short to search |
| CustomerView.LongKeystroke | apps/frontend/src/components/CustomerManagement.tsx:45-49 | a keystroke leaving at least 2 characters issues nothing and re-arms the timer |
| CustomerView.TypingOnlySchedules | apps/frontend/src/components/CustomerManagement.tsx:46-49 | a burst of such keystrokes issues no request and leaves one timer for the last term |
| CustomerView.DebounceIssuesOneSearch | apps/frontend/src/components/CustomerManagement.tsx:46-49 | the burst followed by the timer issues exactly one search, for the last trimmed term |
| CustomerView.ClearingReloadsAtOnce | apps/frontend/src/components/CustomerManagement.tsx:39-43 | clearing the input reloads immediately and cancels any pending timer |
| CustomerView.ShortTermIsIgnored | apps/frontend/src/components/CustomerManagement.tsx:45 | a 1-character term neither searches nor leaves a timer |
| CustomerView.EnterSearchesAtOnce | apps/frontend/src/components/CustomerManagement.tsx:379-383 | Enter searches immediately, even for a 1-character term, and leaves the timer alone |
| HistoryView.WithDate | apps/frontend/src/components/HistoryManagement.tsx:39 | every other key is kept; `Date` is the truthy value or `''` |
| HistoryView.KeptIsShown | apps/frontend/src/components/HistoryManagement.tsx:38-39 | an entry passing the filter is displayable once its date is defaulted |
| HistoryView.Prepare | apps/frontend/src/components/HistoryManagement.tsx:38-39 | one shown entry per object with `Id` and `CustomerId`, in order, each with its date defaulted |
| HistoryView.ShownList | apps/frontend/src/components/HistoryManagement.tsx:145-152 | a falsy or missing `data` shows nothing; otherwise the prepared list or single record |
| HistoryView.WithDateIdempotent | apps/frontend/src/components/HistoryManagement.tsx:39 | defaulting a date twice equals defaulting it once |
| HistoryView.KeepShown | apps/frontend/src/components/HistoryManagement.tsx:38 | a list of shown entries passes the filter unchanged |
| HistoryView.PrepareIdempotent | apps/frontend/src/components/HistoryManagement.tsx:38-39 | preparing a prepared list changes nothing |
| HistoryView.LoadHistories | apps/frontend/src/components/HistoryManagement.tsx:32-48 | a response replaces the list; a thrown error keeps the old list; loading ends either way |
| HistoryView.SearchPlan | apps/frontend/src/components/HistoryManagement.tsx:111-143 | each kind is refused exactly when its inputs are missing or the range is reversed, with the exact message; otherwise the right endpoint is called |
| HistoryView.OneDayRangeAccepted | apps/frontend/src/components/HistoryManagement.tsx:125-129 | a range whose start equals its end is searched, not refused |
| HistoryView.Search | apps/frontend/src/components/HistoryManagement.tsx:106-160 | a refusal leaves the list; a failed search empties it with "Search failed"; a success shows the prepared answer; searching always ends; on every path nothing else in the view state changes, the loading flag included |
| HistoryView.FailedSearchVersusFailedReload | apps/frontend/src/components/HistoryManagement.tsx:140-156 | a failed filtered search empties the list, while a failed "all" reload keeps it and reports nothing |
| HistoryView.RejectionThenRetry | apps/frontend/src/components/HistoryManagement.tsx:108-116 | a refused search ignores any answer and keeps the list; a later successful search clears the message |
| HistoryView.EditDate | apps/frontend/src/components/HistoryManagement.tsx:86 | a falsy date gives `''`; a string gives its prefix up to the first `T`; a truthy non-string has no `split` and gives no value (the call throws) |
| HistoryView.EditDateOfTimestamp | apps/frontend/src/components/HistoryManagement.tsx:86 | `day + "T" + time` is cut back to exactly `day` |
| Auth.Restore | apps/frontend/src/contexts/AuthContext.tsx:31-51 | no token means no call; the success message authenticates with a string `data` or "User"; a thrown error forgets the token; any other answer changes nothing; loading always ends |
| Auth.SignIn | apps/frontend/src/contexts/AuthContext.tsx:53-67 | succeeds exactly when the answer has a truthy `token`, then stores its `String()` form and authenticates under the typed name; otherwise nothing changes |
| Auth.SignOut | apps/frontend/src/contexts/AuthContext.tsx:69-79 | the token, the flag and the name are always cleared |
| Auth.SignOutIgnoresAnswer | apps/frontend/src/contexts/AuthContext.tsx:70-78 | what the server answers to logout never matters |
| Auth.SignOutThenReload | apps/frontend/src/contexts/AuthContext.tsx:32-33 | after logout, the next mount makes no call and stays signed out |
| Auth.FailedRestoreIsFinal | apps/frontend/src/contexts/AuthContext.tsx:42-44 | after a thrown authenticate error, the next mount makes no call |
| Auth.UnrecognisedAnswerKeepsToken | apps/frontend/src/contexts/AuthContext.tsx:35-41 | any answer other than the success message keeps the token for the next mount |
| Auth.BackendAuthReplyNamesUser | apps/frontend/src/contexts/AuthContext.tsx:36-39 | the backend's `{Message, username}` answer restores the session under that name |
| Auth.BackendLoginReplyStoresToken | apps/frontend/src/contexts/AuthContext.tsx:55-60 | the backend's `{Message, token}` answer stores exactly that token and succeeds |
| Auth.BareTokenIsHidden | apps/frontend/src/contexts/AuthContext.tsx:56-62 | a bare `{token}` answer is wrapped by the normaliser, so login reports failure |
| HistoryService.ExistCustomerId | module/history/service/service.go:42-46 | a database error propagates; otherwise the name is non-empty exactly for a known customer |
| HistoryService.FindHistory | module/history/service/service.go:82-86 | returns a stored row with that id, or the probe with customer id 0 when none exists |
| HistoryService.FindHistoryIsFirst | module/history/service/service.go:82-86 | when several rows carry the id, the lookup returns the first of them |
| HistoryService.CopyOut | module/history/service/service.go:26-28 | the copy loop returns the rows unchanged, in order |
| HistoryService.GetHistoryList | module/history/service/service.go:19-30 | returns every stored history in storage order, or the database error |
| HistoryService.GetHistory | module/history/service/service.go:32-57 | an unknown customer errors first, then no visits; a success lists that customer's stored histories, each once per stored row, in storage order |
| HistoryService.GetHistoryForDate | module/history/service/service.go:59-75 | succeeds exactly when some visit has that date, listing them once per stored row in storage order; otherwise an error naming the date |
| HistoryService.GetHistoryForHId | module/history/service/service.go:77-88 | a success is a stored row with that id; under the invariant it succeeds exactly when the id is stored |
| HistoryService.LookupFindsTheRow | module/history/service/service.go:77-88 | under the invariant, a lookup returns the one row with that id |
| HistoryService.NextId | module/history/service/service.go:119 | the id given to a new row is positive and larger than every stored id |
| HistoryService.CreateHistory | module/history/service/service.go:90-123 | succeeds exactly for a known customer and a complete record, errors in source order; appends one fresh-id row; changes nothing on error |
| HistoryService.UpdateHistory | module/history/service/service.go:125-164 | an unknown history is reported before an unknown customer or incompleteness; once the history is found, an unknown customer gives `NoCustomer`, and a known customer with an incomplete record gives `Incomplete`; success replaces exactly the rows with that id |
| HistoryService.DeleteHistory | module/history/service/service.go:166-178 | succeeds exactly when the lookup does; a failure returns the lookup's own error, which is `NoThisHistory` when the store does not fail; the result is the stored rows without that id, in their order, each as often as before |
| HistoryService.Select | module/history/service/service.go:50 | the repository's filtered query: only matching stored rows, each exactly as often as it is stored |
| HistoryService.SelectOne | module/history/service/service.go:50 | a single row is selected exactly when it matches |
| HistoryService.SelectAppend | module/history/service/service.go:50-55 | the query keeps storage order: selecting from a concatenation concatenates the selections |
| HistoryService.SelectEmpty | module/history/service/service.go:50-51 | the selection is empty exactly when no row matches |
| HistoryService.CreateKeepsWf | module/history/service/service.go:90-123 | create preserves positive unique ids and non-zero customer ids |
| HistoryService.UpdateKeepsWf | module/history/service/service.go:125-164 | update preserves the invariant |
| HistoryService.DeleteKeepsWf | module/history/service/service.go:166-178 | delete preserves the invariant |
| HistoryService.CreateThenRead | module/history/service/service.go:77-123 | a created history reads back by its new id |
| HistoryService.UpdateThenRead | module/history/service/service.go:77-164 | an updated history reads back as the submitted record |
| HistoryService.DeleteThenRead | module/history/service/service.go:166-178 | a deleted history reads as "There is no this history" |
| HistoryService.CreateThenList | module/history/service/service.go:32-123 | a created history appears in its customer's history list |
| HistoryService.CreateThenListByDate | module/history/service/service.go:59-123 | after a creation, the listing for the new row's date is the earlier rows on that date, in order, followed by the new row |
| HistoryService.ZeroCustomerIsUnknown | module/history/service/service.go:100-104 | under the invariant, customer id 0 is always reported as an unknown customer, never as incomplete |
| HistoryService.UpdateReportsHistoryFirst | module/history/service/service.go:131-139 | an update naming an unknown history and an unknown customer reports the history |
| Cors.Handle | apps/api/route/cors.go:9-32 | the four fixed headers are always set; the origin is echoed with `Vary: Origin` exactly when allowed; other headers are untouched; OPTIONS aborts with 204, anything else proceeds |
| Cors.OnlyCallerOriginIsAllowed | apps/api/route/cors.go:14-18 | an allow-origin header is only ever the caller's own non-empty origin |
| Cors.SpecificOriginOnly | apps/api/route/cors.go:15 | with a specific configured origin, exactly that origin is allowed |
| Cors.PreflightCarriesSameHeaders | apps/api/route/cors.go:20-28 | a preflight carries the same headers as a normal request but stops the chain |
| Cors.HandleIdempotent | apps/api/route/cors.go:16-23 | applying the middleware twice leaves the same headers as once |

## Left out

- **Transport.** `makeRequest`'s `fetch`, its logging and JSON parsing are
  left out. A call is the `Outcome` it ends with: a parsed body, or a
  thrown error with its message. The status error text is modelled, since
  the save-error mapping reads it.
- **Rendering.** React rendering, modals, `window.confirm` and the
  `loading` spinners are left out, except the flags the modelled handlers
  set. Deleting a customer or a history in the client is just a call
  followed by a reload.
- **The search error in the debounce gate.** `CustomerView.Effect`: does
  not model the `setSearchError(null)` that every run of the debounce
  effect performs (CustomerManagement.tsx:38). Every term or kind change,
  even one that leaves a 1-character term, therefore also clears a shown
  search error. The gate only models which loads and searches are issued,
  and when.
- **Timers and ordering.** Real time and the 350 ms delay are left out; a
  pending timer is a flag and its expiry is an event. In-flight searches
  and loads that finish out of order are not modelled: each handler is
  applied to the outcome of its own call.
- **Dates.**
  - `CustomerForm.BirthdayError`: does not model JavaScript `Date` parsing,
    time zones or time of day. The parser and "today" are parameters, and
    "in the future" is compared on calendar days. The source parses
    `YYYY-MM-DD` as midnight UTC and compares it with the current instant,
    so its future test is exactly "after the current UTC date". The model
    is exact when `today` is the current UTC date. Read with the local
    date instead, it differs in two ways. In zones ahead of UTC, early in
    the local day (before 08:00 at UTC+8), the source already calls
    today's date future. In zones behind UTC, late in the local day, the
    source still accepts tomorrow's date. The year test also differs west
    of UTC: `getFullYear` reads local time there, so `1900-01-01` gives
    1899 and is refused, while the model takes the parsed year as written.
- **String lengths and comparison.**
  - `CustomerForm.NameError`: counts code points where JavaScript counts
    UTF-16 code units. So characters outside the Basic Multilingual Plane
    count once here and twice in the source, and the same holds for the
    other length limits.
  - `Text.StrLessIrreflexive`: the comparison model `StrLess` compares code
    points, not UTF-16 code units. The two orders differ only between
    astral characters and the surrogate range.
- **Upper-casing.** `CustomerForm.FirstTaiwan`: upper-cases ASCII letters
  only. No other character upper-cases to `T`, `W` or `N`, so matching
  against `TWN` is decided the same way.
- **Numbers.** Numbers are integers. `NaN`, floats and number formatting
  beyond integers are left out.
- **Citizenship loading.** `loadCitizenships` and its "general" messages
  (CustomerManagement.tsx:171-206) are not modelled. The citizenship list
  is a parameter of validation.
- **The history form.** `handleSubmit` and `handleDelete` in the history
  view only call the service and reload, so they are not modelled beyond
  the reload. The same goes for the customer lookups the history form uses.
- **The Go repository.** The repository is not part of this model. Its
  behaviour is assumed as described above. A created row is assumed to
  get a fresh id one larger than the largest stored id. An update is
  assumed to replace the whole row, whereas a struct update in the ORM
  would skip zero-valued fields such as an empty `Room` or `Note`.
  `CreateHistory`'s existence probe (`repo.GetHistory(in)`, service.go:116)
  only matters through its error, which the `fault` field already covers.
- **The uuid interface.** The Go service interface at
  `module/history/service.go` names uuid-keyed methods that the integer-id
  service does not implement. The service is modelled as written, with
  integer ids.
- **Configuration.** How `config.Val.FrontendOrigin` is read is left out;
  it is a parameter of `Cors.Handle`. Gin's header canonicalisation is
  also left out: the `Origin` header is given as a string, empty when
  absent.
- **Server bootstrap.** `main.go`, routing and database migration are not
  modelled.

=== FILE: auth.dfy ===
/** The client's session: restoring it from the stored token when the app
    mounts, logging in and logging out. The stored token is the one value
    that outlives a page load; everything else is rebuilt from it. */
module Auth {
  import opened Common
  import opened JsonValue
  import opened Envelope

  const AuthOk := "Authentication successfully"
  const FallbackName := "User"

  /** What the provider exposes, plus the token in local storage. */
  datatype Session = Session(
    authenticated: bool,
    username: Option<string>,
    loading: bool,
    stored: Option<string>)

  /** An authenticated session always knows a name to show. */
  predicate Coherent(s: Session) {
    s.authenticated ==> s.username.Some?
  }

  /** `if (token)`: a stored, non-empty token. */
  predicate HasToken(stored: Option<string>) {
    stored.Some? && stored.value != ""
  }

  /** The mount effect, given the outcome of the `authenticate` call it makes
      when a token is stored. Loading ends on every path. A success message
      authenticates, naming the user by `data` when that is a string; a
      thrown error forgets the token; any other answer changes nothing. */
  function Restore(stored: Option<string>, outcome: Outcome): (r: Session)
    ensures !r.loading && Coherent(r)
    ensures !HasToken(stored) ==> r == Session(false, None, false, stored)
    ensures HasToken(stored) && outcome.Err? ==> r == Session(false, None, false, None)
    ensures HasToken(stored) && outcome.Ok? ==>
              var e := Respond(Authenticate, outcome.body);
              && r.stored == stored
              && (r.authenticated <==> Get(e, "Message") == Some(JStr(AuthOk)))
              && (r.authenticated && Get(e, "data").Some? && Get(e, "data").value.JStr? ==>
                    r.username == Some(Get(e, "data").value.s))
              && (r.authenticated && !(Get(e, "data").Some? && Get(e, "data").value.JStr?) ==>
                    r.username == Some(FallbackName))
              && (!r.authenticated ==> r.username.None?)
  {
    var idle := Session(false, None, false, stored);
    if !HasToken(stored) then idle
    else
      match outcome
      case Err(_) => idle.(stored := None)
      case Ok(raw) =>
        var e := Respond(Authenticate, raw);
        if Get(e, "Message") == Some(JStr(AuthOk)) then
          var name := if HasKey(e, "data") && e.fields["data"].JStr? then e.fields["data"].s else FallbackName;
          idle.(authenticated := true, username := Some(name))
        else idle
  }

  /** `login`: a truthy `token` in the answer is stored as `String(token)`
      and authenticates under the name that was typed; anything else,
      including a thrown error, reports failure and changes nothing. */
  function SignIn(s: Session, name: string, outcome: Outcome): (r: (Session, bool))
    ensures r.1 <==> outcome.Ok? && TruthyAt(Respond(Login, outcome.body), "token")
    ensures !r.1 ==> r.0 == s
    ensures r.1 ==> && r.0.authenticated && r.0.username == Some(name) && r.0.loading == s.loading
                    && r.0.stored == Some(Render(Respond(Login, outcome.body).fields["token"]))
    ensures Coherent(s) ==> Coherent(r.0)
  {
    match outcome
    case Err(_) => (s, false)
    case Ok(raw) =>
      var e := Respond(Login, raw);
      if TruthyAt(e, "token") then
        (s.(stored := Some(Render(e.fields["token"])), authenticated := true, username := Some(name)), true)
      else (s, false)
  }

  /** `logout`: whatever the server answers, the token is removed and the
      session ends. */
  function SignOut(s: Session, outcome: Outcome): (r: Session)
    ensures !r.authenticated && r.username.None? && r.stored.None?
    ensures r.loading == s.loading
    ensures Coherent(r)
  {
    s.(stored := None, authenticated := false, username := None)
  }

  /** The outcome of the logout call never matters. */
  lemma SignOutIgnoresAnswer(s: Session, a: Outcome, b: Outcome)
    ensures SignOut(s, a) == SignOut(s, b)
  {
  }

  /** After a logout the next mount makes no call and stays signed out. */
  lemma SignOutThenReload(s: Session, a: Outcome, b: Outcome)
    ensures Restore(SignOut(s, a).stored, b) == Session(false, None, false, None)
  {
  }

  /** A thrown `authenticate` error forgets the token, so the following
      mount makes no call at all. */
  lemma FailedRestoreIsFinal(stored: Option<string>, msg: string, next: Outcome)
    requires HasToken(stored)
    ensures Restore(Restore(stored, Err(msg)).stored, next) == Session(false, None, false, None)
  {
  }

  /** An answer that is not the success message keeps the token, so the
      next mount asks again with the same token. */
  lemma UnrecognisedAnswerKeepsToken(stored: Option<string>, raw: Json)
    requires HasToken(stored)
    requires Get(Respond(Authenticate, raw), "Message") != Some(JStr(AuthOk))
    ensures Restore(stored, Ok(raw)) == Session(false, None, false, stored)
  {
  }

  /** The backend's success answer `{Message, username}` restores the
      session under that user name: the normaliser turns `username` into
      `data`. */
  lemma BackendAuthReplyNamesUser(token: string, name: string)
    requires token != ""
    ensures var raw := JObj(map["Message" := JStr(AuthOk), "username" := JStr(name)]);
      Restore(Some(token), Ok(raw)) == Session(true, Some(name), false, Some(token))
  {
    var raw := JObj(map["Message" := JStr(AuthOk), "username" := JStr(name)]);
    NormalizeUsername(raw);
  }

  /** The backend's login answer `{Message, token}` passes the normaliser
      untouched, so the token is stored exactly and the login succeeds. */
  lemma BackendLoginReplyStoresToken(s: Session, name: string, msg: string, token: string)
    requires token != ""
    ensures var raw := JObj(map["Message" := JStr(msg), "token" := JStr(token)]);
      SignIn(s, name, Ok(raw)) == (s.(stored := Some(token), authenticated := true, username := Some(name)), true)
  {
    var raw := JObj(map["Message" := JStr(msg), "token" := JStr(token)]);
    forall k | k in Aliases ensures k !in raw.fields { }
    NormalizeMessageOnly(raw);
  }

  /** A login answer carrying a token but no `Message` is wrapped whole by
      the normaliser, which hides the token: the login reports failure. */
  lemma BareTokenIsHidden(s: Session, name: string, token: string)
    ensures SignIn(s, name, Ok(JObj(map["token" := JStr(token)]))) == (s, false)
  {
    var raw := JObj(map["token" := JStr(token)]);
    forall k | k in Aliases + ["data", "username", "Message"] ensures k !in raw.fields { }
    NormalizeFallbackObject(raw);
  }
}

=== FILE: common.dfy ===
/** Small shared datatypes: an optional value, and the value-or-error pair
    the backend's Go services return. */
module Common {

  datatype Option<+T> = None | Some(value: T)

  /** A Go `(value, error)` return where exactly one side is meaningful. */
  datatype Result<+T> = Success(value: T) | Failure(error: string)
}

=== FILE: cors.dfy ===
/** The backend's cross-origin middleware: which response headers it sets,
    when it echoes the caller's origin, and how it ends a preflight. */
module Cors {
  import opened Common

  const AllowOrigin := "Access-Control-Allow-Origin"
  const Vary := "Vary"
  const AllowHeaders := "Access-Control-Allow-Headers"
  const AllowMethods := "Access-Control-Allow-Methods"
  const ExposeHeaders := "Access-Control-Expose-Headers"
  const AllowCredentials := "Access-Control-Allow-Credentials"

  const AllowHeadersValue := "Content-Type,AccessToken,X-CSRF-Token, Authorization, Token, Application, Access-Control-Allow-Origin"
  const AllowMethodsValue := "POST, GET, OPTIONS, PUT, DELETE"
  const ExposeHeadersValue := "Content-Length, Access-Control-Allow-Origin, Access-Control-Allow-Headers, Content-Type"

  /** HTTP 204, the status a preflight is answered with. */
  const NoContent := 204

  /** The request as the middleware reads it: the method (`verb`), and
      the `Origin` header, which reads as empty when absent. */
  datatype Request = Request(verb: string, origin: string)

  /** What the middleware leaves behind: the response headers, the status
      the chain was aborted with (if it was), and whether the rest of the
      chain runs. */
  datatype Decision = Decision(headers: map<string, string>, aborted: Option<int>, proceeds: bool)

  /** The origin is echoed when it is present and the configured frontend
      origin is either the wildcard or that very origin. */
  predicate Echoes(frontendOrigin: string, origin: string) {
    origin != "" && (frontendOrigin == "*" || origin == frontendOrigin)
  }

  /** The four headers set on every response, whatever the request. */
  predicate HasFixedHeaders(h: map<string, string>) {
    && AllowHeaders in h && h[AllowHeaders] == AllowHeadersValue
    && AllowMethods in h && h[AllowMethods] == AllowMethodsValue
    && ExposeHeaders in h && h[ExposeHeaders] == ExposeHeadersValue
    && AllowCredentials in h && h[AllowCredentials] == "true"
  }

  /** The middleware applied to a request, on top of the headers already
      set on the response. */
  function Handle(frontendOrigin: string, req: Request, prior: map<string, string>): (d: Decision)
    ensures HasFixedHeaders(d.headers)
    ensures AllowOrigin in d.headers <==> AllowOrigin in prior || Echoes(frontendOrigin, req.origin)
    ensures Echoes(frontendOrigin, req.origin) ==>
              d.headers[AllowOrigin] == req.origin && Vary in d.headers && d.headers[Vary] == "Origin"
    ensures !Echoes(frontendOrigin, req.origin) ==>
              forall k :: k in prior && k in {AllowOrigin, Vary} ==> k in d.headers && d.headers[k] == prior[k]
    ensures d.headers.Keys == prior.Keys + {AllowHeaders, AllowMethods, ExposeHeaders, AllowCredentials}
                              + (if Echoes(frontendOrigin, req.origin) then {AllowOrigin, Vary} else {})
    ensures forall k :: k in prior && k !in {AllowOrigin, Vary, AllowHeaders, AllowMethods, ExposeHeaders, AllowCredentials}
              ==> d.headers[k] == prior[k]
    ensures req.verb == "OPTIONS" <==> d.aborted == Some(NoContent)
    ensures d.proceeds <==> d.aborted.None?
  {
    var h0 := if Echoes(frontendOrigin, req.origin)
      then prior[AllowOrigin := req.origin][Vary := "Origin"]
      else prior;
    var h := h0[AllowHeaders := AllowHeadersValue]
               [AllowMethods := AllowMethodsValue]
               [ExposeHeaders := ExposeHeadersValue]
               [AllowCredentials := "true"];
    if req.verb == "OPTIONS" then Decision(h, Some(NoContent), false)
    else Decision(h, None, true)
  }

  /** On a fresh response, an allow-origin header is only ever the caller's
      own origin, never a configured wildcard substituted for it. */
  lemma OnlyCallerOriginIsAllowed(frontendOrigin: string, req: Request)
    ensures var d := Handle(frontendOrigin, req, map[]);
      AllowOrigin in d.headers ==> d.headers[AllowOrigin] == req.origin && req.origin != ""
  {
  }

  /** With a specific configured origin, exactly that origin is allowed. */
  lemma SpecificOriginOnly(frontendOrigin: string, req: Request)
    requires frontendOrigin != "*" && frontendOrigin != ""
    ensures AllowOrigin in Handle(frontendOrigin, req, map[]).headers <==> req.origin == frontendOrigin
  {
  }

  /** A preflight stops the chain with 204 but still carries every header a
      normal response would. */
  lemma PreflightCarriesSameHeaders(frontendOrigin: string, origin: string, verb: string, prior: map<string, string>)
    requires verb != "OPTIONS"
    ensures var pre := Handle(frontendOrigin, Request("OPTIONS", origin), prior);
            var normal := Handle(frontendOrigin, Request(verb, origin), prior);
      pre.headers == normal.headers && !pre.proceeds && normal.proceeds
  {
  }

  /** Running the middleware twice leaves the same headers as once. */
  lemma HandleIdempotent(frontendOrigin: string, req: Request, prior: map<string, string>)
    ensures var once := Handle(frontendOrigin, req, prior);
      Handle(frontendOrigin, req, once.headers).headers == once.headers
  {
    var once := Handle(frontendOrigin, req, prior);
    var twice := Handle(frontendOrigin, req, once.headers);
    assert twice.headers.Keys == once.headers.Keys;
    forall k | k in once.headers ensures twice.headers[k] == once.headers[k] {
    }
  }
}

=== FILE: customer_form.dfy ===
/** The customer form: field-by-field validation before any create or
    update, the submission decision, the mapping of a failed save onto the
    form's error map, the default citizenship and the edit prefill. */
module CustomerForm {
  import opened Common
  import opened Text
  import opened Envelope

  /** A calendar date as the host's date parser yields it; only its order
      and its year matter to the form. */
  datatype Date = Date(year: int, month: int, day: int)

  /** `a > b` on dates. */
  predicate After(a: Date, b: Date) {
    || a.year > b.year
    || (a.year == b.year && a.month > b.month)
    || (a.year == b.year && a.month == b.month && a.day > b.day)
  }

  /** One entry of the citizenship reference list. */
  datatype Citizenship = Citizenship(id: int, nation: string, alpha3: string)

  /** The form as the user filled it in. */
  datatype Form = Form(
    name: string,
    gender: string,
    birthday: string,
    nationalId: string,
    address: string,
    phoneNumber: string,
    carNumber: string,
    citizenshipId: int,
    note: string)

  /** The keys of the form's error map; `General` carries errors not tied to
      one input. */
  datatype Field =
    | Name | Gender | Birthday | NationalId | PhoneNumber | CarNumber
    | CitizenshipId | Address | Note | General

  /** What validation needs besides the form: the loaded citizenship list,
      the host's date parser and the current date. */
  datatype Context = Context(citizenships: seq<Citizenship>, parse: string -> Option<Date>, today: Date)

  const NameRequired := "Name is required"
  const NameTooLong := "Name must be less than 100 characters"
  const GenderRequired := "Gender is required"
  const GenderInvalid := "Gender must be \"Male\" or \"Female\""
  const BirthdayRequired := "Birthday is required"
  const BirthdayInvalid := "Invalid date format"
  const BirthdayFuture := "Birthday cannot be in the future"
  const BirthdayTooEarly := "Birthday year must be after 1900"
  const NationalIdRequired := "National ID is required"
  const NationalIdTooLong := "National ID must be less than 100 characters"
  const NationalIdCharset := "National ID can only contain letters, numbers, hyphens, and underscores"
  const PhoneInvalid := "Invalid phone number format"
  const CarInvalid := "Car number can only contain letters, numbers, and hyphens (max 20 chars)"
  const CitizenshipUnselected := "Please select a valid citizenship"
  const CitizenshipUnknown := "Selected citizenship does not exist"
  const AddressTooLong := "Address must be less than 500 characters"
  const NoteTooLong := "Note must be less than 1000 characters"
  const NationalIdTaken := "This National ID already exists"
  const SaveFailed := "Failed to save customer. Please try again."

  // ---------------------------------------------------------------------
  // The character classes of the three regular expressions

  /** `[A-Za-z0-9\-_]` */
  predicate NationalIdChar(c: char) {
    IsAsciiLetter(c) || IsDigit(c) || c == '-' || c == '_'
  }

  /** `[0-9\-\(\)\s]` */
  predicate PhoneChar(c: char) {
    IsDigit(c) || c == '-' || c == '(' || c == ')' || IsSpace(c)
  }

  /** `[A-Za-z0-9\-]` */
  predicate CarChar(c: char) {
    IsAsciiLetter(c) || IsDigit(c) || c == '-'
  }

  /** `/^[A-Za-z0-9\-_]+$/` */
  predicate MatchesNationalId(s: string) {
    |s| >= 1 && forall i :: 0 <= i < |s| ==> NationalIdChar(s[i])
  }

  predicate PhoneBody(s: string) {
    7 <= |s| <= 20 && forall i :: 0 <= i < |s| ==> PhoneChar(s[i])
  }

  /** `/^[\+]?[0-9\-\(\)\s]{7,20}$/`: since `+` is outside the class, a
      leading `+` must be the optional one. */
  predicate MatchesPhone(s: string) {
    PhoneBody(s) || (|s| > 0 && s[0] == '+' && PhoneBody(s[1..]))
  }

  /** `/^[A-Za-z0-9\-]{1,20}$/` */
  predicate MatchesCar(s: string) {
    1 <= |s| <= 20 && forall i :: 0 <= i < |s| ==> CarChar(s[i])
  }

  /** `!s || s.trim() === ''`: by `TrimEmptyIffAllSpace`, the string is
      empty or white space only. */
  predicate Blank(s: string) {
    AllSpace(s)
  }

  predicate HasNonSpace(s: string) {
    exists i :: 0 <= i < |s| && !IsSpace(s[i])
  }

  lemma BlankIffNoNonSpace(s: string)
    ensures Blank(s) <==> Trim(s) == ""
    ensures Blank(s) <==> !HasNonSpace(s)
  {
    TrimEmptyIffAllSpace(s);
  }

  /** `citizenships.find(c => c.Id === id)` succeeds. */
  predicate Listed(id: int, citizenships: seq<Citizenship>) {
    exists i :: 0 <= i < |citizenships| && citizenships[i].id == id
  }

  // ---------------------------------------------------------------------
  // The rules of a valid customer, stated positively, one per field

  predicate NameOk(name: string) {
    HasNonSpace(name) && |name| <= 100
  }

  predicate GenderOk(gender: string) {
    gender == "Male" || gender == "Female"
  }

  predicate BirthdayOk(birthday: string, ctx: Context) {
    && birthday != ""
    && ctx.parse(birthday).Some?
    && !After(ctx.parse(birthday).value, ctx.today)
    && ctx.parse(birthday).value.year >= 1900
  }

  predicate NationalIdOk(nid: string) {
    HasNonSpace(nid) && |nid| <= 100 && MatchesNationalId(nid)
  }

  predicate PhoneOk(phone: string) {
    !HasNonSpace(phone) || MatchesPhone(phone)
  }

  predicate CarOk(car: string) {
    !HasNonSpace(car) || MatchesCar(car)
  }

  predicate CitizenshipOk(id: int, citizenships: seq<Citizenship>) {
    id > 0 && Listed(id, citizenships)
  }

  predicate ValidCustomer(form: Form, ctx: Context) {
    && NameOk(form.name)
    && GenderOk(form.gender)
    && BirthdayOk(form.birthday, ctx)
    && NationalIdOk(form.nationalId)
    && PhoneOk(form.phoneNumber)
    && CarOk(form.carNumber)
    && CitizenshipOk(form.citizenshipId, ctx.citizenships)
    && |form.address| <= 500
    && |form.note| <= 1000
  }

  // ---------------------------------------------------------------------
  // One rule chain per field. Each is silent exactly when its rule holds,
  // and a message is only reported once every earlier test of its chain
  // has passed.

  function NameError(name: string): (r: Option<string>)
    ensures r.None? <==> NameOk(name)
    ensures r == Some(NameRequired) <==> !HasNonSpace(name)
    ensures r.Some? ==> r.value in {NameRequired, NameTooLong}
  {
    if Blank(name) then Some(NameRequired)
    else if |name| > 100 then Some(NameTooLong)
    else None
  }

  function GenderError(gender: string): (r: Option<string>)
    ensures r.None? <==> GenderOk(gender)
    ensures r == Some(GenderRequired) <==> gender == ""
    ensures r.Some? ==> r.value in {GenderRequired, GenderInvalid}
  {
    if gender == "" then Some(GenderRequired)
    else if gender != "Male" && gender != "Female" then Some(GenderInvalid)
    else None
  }

  function BirthdayError(birthday: string, ctx: Context): (r: Option<string>)
    ensures r.None? <==> BirthdayOk(birthday, ctx)
    ensures r == Some(BirthdayRequired) <==> birthday == ""
    ensures r == Some(BirthdayInvalid) <==> birthday != "" && ctx.parse(birthday).None?
    ensures r == Some(BirthdayFuture) ==> ctx.parse(birthday).Some? && After(ctx.parse(birthday).value, ctx.today)
    ensures r == Some(BirthdayTooEarly) ==>
              && birthday != "" && ctx.parse(birthday).Some?
              && !After(ctx.parse(birthday).value, ctx.today)
              && ctx.parse(birthday).value.year < 1900
    ensures r.Some? ==> r.value in {BirthdayRequired, BirthdayInvalid, BirthdayFuture, BirthdayTooEarly}
  {
    if birthday == "" then Some(BirthdayRequired)
    else match ctx.parse(birthday)
      case None => Some(BirthdayInvalid)
      case Some(d) =>
        if After(d, ctx.today) then Some(BirthdayFuture)
        else if d.year < 1900 then Some(BirthdayTooEarly)
        else None
  }

  function NationalIdError(nid: string): (r: Option<string>)
    ensures r.None? <==> NationalIdOk(nid)
    ensures r == Some(NationalIdRequired) <==> !HasNonSpace(nid)
    ensures r == Some(NationalIdTooLong) <==> HasNonSpace(nid) && |nid| > 100
    ensures r == Some(NationalIdCharset) ==>
              HasNonSpace(nid) && |nid| <= 100 && exists i :: 0 <= i < |nid| && !NationalIdChar(nid[i])
    ensures r.Some? ==> r.value in {NationalIdRequired, NationalIdTooLong, NationalIdCharset}
  {
    if Blank(nid) then Some(NationalIdRequired)
    else if |nid| > 100 then Some(NationalIdTooLong)
    else if !MatchesNationalId(nid) then Some(NationalIdCharset)
    else None
  }

  function PhoneError(phone: string): (r: Option<string>)
    ensures r.None? <==> PhoneOk(phone)
    ensures r.Some? ==> r.value == PhoneInvalid && HasNonSpace(phone)
  {
    if !Blank(phone) && !MatchesPhone(phone) then Some(PhoneInvalid) else None
  }

  function CarError(car: string): (r: Option<string>)
    ensures r.None? <==> CarOk(car)
    ensures r.Some? ==> r.value == CarInvalid && HasNonSpace(car)
  {
    if !Blank(car) && !MatchesCar(car) then Some(CarInvalid) else None
  }

  function CitizenshipError(id: int, citizenships: seq<Citizenship>): (r: Option<string>)
    ensures r.None? <==> CitizenshipOk(id, citizenships)
    ensures r == Some(CitizenshipUnselected) <==> id <= 0
    ensures r == Some(CitizenshipUnknown) <==>
              id > 0 && forall i :: 0 <= i < |citizenships| ==> citizenships[i].id != id
  {
    if id <= 0 then Some(CitizenshipUnselected)
    else if !Listed(id, citizenships) then Some(CitizenshipUnknown)
    else None
  }

  function AddressError(address: string): (r: Option<string>)
    ensures r.None? <==> |address| <= 500
  {
    if |address| > 500 then Some(AddressTooLong) else None
  }

  function NoteError(note: string): (r: Option<string>)
    ensures r.None? <==> |note| <= 1000
  {
    if |note| > 1000 then Some(NoteTooLong) else None
  }

  /** The verdict of one field's rule chain. */
  function FieldError(form: Form, ctx: Context, f: Field): Option<string> {
    match f
    case Name => NameError(form.name)
    case Gender => GenderError(form.gender)
    case Birthday => BirthdayError(form.birthday, ctx)
    case NationalId => NationalIdError(form.nationalId)
    case PhoneNumber => PhoneError(form.phoneNumber)
    case CarNumber => CarError(form.carNumber)
    case CitizenshipId => CitizenshipError(form.citizenshipId, ctx.citizenships)
    case Address => AddressError(form.address)
    case Note => NoteError(form.note)
    case General => None
  }

  const FormFields: set<Field> :=
    {Name, Gender, Birthday, NationalId, PhoneNumber, CarNumber, CitizenshipId, Address, Note}

  /** `validateForm`: every field's chain runs, independently of the others,
      and contributes at most its first failing message. */
  function Validate(form: Form, ctx: Context): (errors: map<Field, string>)
    ensures errors.Keys <= FormFields
    ensures forall f :: f in errors <==> FieldError(form, ctx, f).Some?
    ensures forall f :: f in errors ==> errors[f] == FieldError(form, ctx, f).value
  {
    map f | f in FormFields && FieldError(form, ctx, f).Some? :: FieldError(form, ctx, f).value
  }

  /** The form is accepted (the error map is empty) exactly when the
      customer satisfies every rule. */
  lemma ValidateEmptyIffValid(form: Form, ctx: Context)
    ensures Validate(form, ctx).Keys == {} <==> ValidCustomer(form, ctx)
  {
    if Validate(form, ctx).Keys == {} {
      EmptyErrorsMeansValid(form, ctx);
    }
    if ValidCustomer(form, ctx) {
      ValidMeansEmptyErrors(form, ctx);
    }
  }

  lemma EmptyErrorsMeansValid(form: Form, ctx: Context)
    requires Validate(form, ctx).Keys == {}
    ensures ValidCustomer(form, ctx)
  {
    var errors := Validate(form, ctx);
    assert Name !in errors && Gender !in errors && Birthday !in errors;
    assert NationalId !in errors && PhoneNumber !in errors && CarNumber !in errors;
    assert CitizenshipId !in errors && Address !in errors && Note !in errors;
  }

  lemma ValidMeansEmptyErrors(form: Form, ctx: Context)
    requires ValidCustomer(form, ctx)
    ensures Validate(form, ctx).Keys == {}
  {
    var errors := Validate(form, ctx);
    forall f | f in FormFields ensures f !in errors {
      assert FieldError(form, ctx, f).None?;
    }
  }

  /** A date parser that knows two literal dates, for the examples below. */
  function ExampleParse(s: string): Option<Date> {
    if s == "2999-01-01" then Some(Date(2999, 1, 1))
    else if s == "1990-01-01" then Some(Date(1990, 1, 1))
    else None
  }

  const ExampleContext := Context([Citizenship(1, "Taiwan", "TWN")], ExampleParse, Date(2026, 10, 10))

  /** An empty name, an unknown gender, a future birthday and an `@` in the
      national id give exactly those four field errors. */
  lemma FourFieldErrorsExample()
    ensures Validate(Form("", "Other", "2999-01-01", "A@1", "", "", "", 1, ""), ExampleContext).Keys
            == {Name, Gender, Birthday, NationalId}
  {
    var form := Form("", "Other", "2999-01-01", "A@1", "", "", "", 1, "");
    var e := Validate(form, ExampleContext);
    assert !NationalIdChar(form.nationalId[1]);
    assert !IsSpace(form.nationalId[0]);
    assert ExampleContext.citizenships[0].id == 1;
    assert e.Keys == {Name, Gender, Birthday, NationalId};
  }

  /** A fully valid customer yields no error at all. */
  lemma ValidCustomerExample()
    ensures Validate(Form("Jane Doe", "Female", "1990-01-01", "A1-23", "", "", "", 1, ""), ExampleContext).Keys == {}
  {
    var form := Form("Jane Doe", "Female", "1990-01-01", "A1-23", "", "", "", 1, "");
    assert !IsSpace(form.name[0]) && !IsSpace(form.nationalId[0]);
    assert ExampleContext.citizenships[0].id == 1;
    assert ValidCustomer(form, ExampleContext);
    ValidateEmptyIffValid(form, ExampleContext);
  }

  // ---------------------------------------------------------------------
  // Submission

  /** What a submission sends: a new customer, or an update of the customer
      being edited. */
  datatype Save = Create(form: Form) | Update(form: Form, customerId: string)

  datatype SubmitStart = Blocked(errors: map<Field, string>) | Send(request: Save)

  /** The first half of `handleSubmit`: a failed validation blocks the save
      and becomes the error map; otherwise the create or update is sent. */
  function Submit(form: Form, ctx: Context, editing: Option<string>): (r: SubmitStart)
    ensures r.Blocked? <==> !ValidCustomer(form, ctx)
    ensures r.Blocked? ==> r.errors != map[] && r.errors == Validate(form, ctx)
    ensures r.Send? ==> r.request.form == form && (r.request.Update? <==> editing.Some?)
    ensures r.Send? && editing.Some? ==> r.request.customerId == editing.value
  {
    ValidateEmptyIffValid(form, ctx);
    var errors := Validate(form, ctx);
    if errors != map[] then Blocked(errors)
    else if editing.Some? then Send(Update(form, editing.value))
    else Send(Create(form))
  }

  datatype SubmitEnd = Saved | Rejected(errors: map<Field, string>)

  /** The second half: a successful save resets the form and reloads the
      list; a thrown error is mapped onto the error map by its text. */
  function SaveResult(outcome: Outcome): (r: SubmitEnd)
    ensures outcome.Ok? <==> r.Saved?
    ensures r.Rejected? ==> |r.errors| == 1
    ensures r.Rejected? ==> (NationalId in r.errors <==> Contains(outcome.message, "NationalId"))
    ensures r.Rejected? ==> (General in r.errors <==> !Contains(outcome.message, "NationalId"))
    ensures r.Rejected? && NationalId in r.errors ==> r.errors[NationalId] == NationalIdTaken
  {
    match outcome
    case Ok(_) => Saved
    case Err(msg) =>
      if msg != "" && Contains(msg, "NationalId") then Rejected(map[NationalId := NationalIdTaken])
      else Rejected(map[General := SaveFailed])
  }

  /** A save that failed with a non-success HTTP status always lands on the
      general error, never on the national id field. */
  lemma StatusFailureIsGeneral(status: int)
    ensures SaveResult(Err(HttpErrorText(status))) == Rejected(map[General := SaveFailed])
  {
    HttpErrorNeverNamesNationalId(status);
  }

  // ---------------------------------------------------------------------
  // Defaults and prefill

  /** Whether an entry's code upper-cases to `TWN`. */
  predicate IsTaiwan(c: Citizenship) {
    UpperAscii(c.alpha3) == "TWN"
  }

  /** Index of the first entry satisfying `IsTaiwan`; `|cs|` when none does. */
  function FirstTaiwan(cs: seq<Citizenship>): (i: nat)
    ensures i <= |cs|
    ensures forall j :: 0 <= j < i ==> !IsTaiwan(cs[j])
    ensures i < |cs| ==> IsTaiwan(cs[i])
  {
    if |cs| == 0 || IsTaiwan(cs[0]) then 0 else 1 + FirstTaiwan(cs[1..])
  }

  /** The citizenship a new customer starts with: the first TWN entry, else
      the first entry, else 0. */
  function DefaultCitizenship(cs: seq<Citizenship>): (id: int)
    ensures |cs| == 0 ==> id == 0
    ensures (exists i :: 0 <= i < |cs| && IsTaiwan(cs[i])) ==>
              exists i :: 0 <= i < |cs| && IsTaiwan(cs[i]) && id == cs[i].id
                          && forall j :: 0 <= j < i ==> !IsTaiwan(cs[j])
    ensures |cs| > 0 && (forall i :: 0 <= i < |cs| ==> !IsTaiwan(cs[i])) ==> id == cs[0].id
  {
    var t := FirstTaiwan(cs);
    if t < |cs| then cs[t].id
    else if |cs| > 0 then cs[0].id
    else 0
  }

  /** The default choice passes the citizenship rule whenever the list is
      non-empty and its ids are positive. */
  lemma DefaultCitizenshipIsValid(cs: seq<Citizenship>)
    requires |cs| > 0
    requires forall i :: 0 <= i < |cs| ==> cs[i].id > 0
    ensures CitizenshipError(DefaultCitizenship(cs), cs).None?
  {
    var t := FirstTaiwan(cs);
    if t < |cs| {
      assert cs[t].id == DefaultCitizenship(cs);
    } else {
      assert cs[0].id == DefaultCitizenship(cs);
    }
  }

  /** `(s || '').split('T')[0]`: the part of a timestamp before its first
      `T`. */
  function DatePart(s: string): (r: string)
    ensures |r| <= |s| && r == s[..|r|]
    ensures forall i :: 0 <= i < |r| ==> r[i] != 'T'
    ensures |r| < |s| ==> s[|r|] == 'T'
  {
    if |s| == 0 || s[0] == 'T' then "" else [s[0]] + DatePart(s[1..])
  }
}

=== FILE: customer_view.dfy ===
/** The customer list view: loading the list, searching it, keeping only
    well-formed entries, and the debounce gate that decides when a typed
    search term triggers a query. */
module CustomerView {
  import opened Common
  import opened Text
  import opened JsonValue
  import opened Envelope

  const SearchFailed := "Search failed. Please try again."

  // ---------------------------------------------------------------------
  // Identity filtering

  /** `c && typeof c === 'object' && k in c` for every key `k` of `keys`. */
  predicate HasKeys(v: Json, keys: seq<string>) {
    forall i :: 0 <= i < |keys| ==> HasKey(v, keys[i])
  }

  /** `list.filter(...)` keeping the objects that carry every identity key:
      exactly those elements, each as often as it occurs, in their order. */
  function KeepWith(list: seq<Json>, keys: seq<string>): (r: seq<Json>)
    ensures |r| <= |list|
    ensures forall i :: 0 <= i < |r| ==> HasKeys(r[i], keys)
    ensures |keys| > 0 ==> forall i :: 0 <= i < |r| ==> r[i].JObj?
    ensures forall x :: multiset(r)[x] == if HasKeys(x, keys) then multiset(list)[x] else 0
  {
    if |list| == 0 then []
    else
      assert list == [list[0]] + list[1..];
      var rest := KeepWith(list[1..], keys);
      if HasKeys(list[0], keys) then
        assert |keys| > 0 ==> HasKey(list[0], keys[0]);
        [list[0]] + rest
      else rest
  }

  /** Filtering keeps order: the result of filtering a concatenation is the
      concatenation of the results. */
  lemma {:induction false} KeepWithAppend(a: seq<Json>, b: seq<Json>, keys: seq<string>)
    ensures KeepWith(a + b, keys) == KeepWith(a, keys) + KeepWith(b, keys)
  {
    if |a| > 0 {
      assert (a + b)[1..] == a[1..] + b;
      KeepWithAppend(a[1..], b, keys);
    } else {
      assert a + b == b;
    }
  }

  /** A list already made of identity-carrying objects passes unchanged. */
  lemma {:induction false} KeepWithIdempotent(list: seq<Json>, keys: seq<string>)
    ensures KeepWith(KeepWith(list, keys), keys) == KeepWith(list, keys)
  {
    if |list| > 0 {
      KeepWithIdempotent(list[1..], keys);
    }
  }

  /** What a search or list call yields for the view: the `data` of the
      response (wrapped into a list when it is not an array), filtered, or
      nothing when `data` is missing or falsy. */
  function Entries(resp: Json, keys: seq<string>): (r: seq<Json>)
    ensures !TruthyAt(resp, "data") ==> r == []
    ensures TruthyAt(resp, "data") ==> r == KeepWith(AsList(resp.fields["data"]), keys)
  {
    if TruthyAt(resp, "data") then KeepWith(AsList(resp.fields["data"]), keys) else []
  }

  // ---------------------------------------------------------------------
  // Loading and rendering the list

  /** `loadCustomers`: an array `data` becomes the list as it is; anything
      else, and any transport failure, empties it. */
  function LoadCustomers(outcome: Outcome): (list: seq<Json>)
    ensures outcome.Err? ==> list == []
    ensures outcome.Ok? && TruthyAt(Respond(ListCustomers, outcome.body), "data")
            && Respond(ListCustomers, outcome.body).fields["data"].JArr?
            ==> list == Respond(ListCustomers, outcome.body).fields["data"].items
    ensures outcome.Ok? && !(TruthyAt(Respond(ListCustomers, outcome.body), "data")
                             && Respond(ListCustomers, outcome.body).fields["data"].JArr?)
            ==> list == []
  {
    match outcome
    case Err(_) => []
    case Ok(raw) =>
      var resp := Respond(ListCustomers, raw);
      if TruthyAt(resp, "data") && resp.fields["data"].JArr? then resp.fields["data"].items else []
  }

  /** `{...c, Birthday: c.Birthday || ''}`. */
  function WithBirthday(c: Json): (r: Json)
    requires c.JObj?
    ensures r.JObj? && r.fields.Keys == c.fields.Keys + {"Birthday"}
    ensures forall k :: k in c.fields && k != "Birthday" ==> r.fields[k] == c.fields[k]
    ensures r.fields["Birthday"] == (if TruthyAt(c, "Birthday") then c.fields["Birthday"] else JStr(""))
  {
    Put(c, "Birthday", if TruthyAt(c, "Birthday") then c.fields["Birthday"] else JStr(""))
  }

  /** What the list renders for one customer: an `Id`, and a `Birthday`
      that is either truthy or the empty string. */
  predicate Renderable(c: Json) {
    && HasKey(c, "Id") && HasKey(c, "Birthday")
    && (Truthy(c.fields["Birthday"]) || c.fields["Birthday"] == JStr(""))
  }

  /** `.map(c => ({...c, Birthday: c.Birthday || ''}))`. */
  function DefaultBirthdays(cs: seq<Json>): (r: seq<Json>)
    requires forall i :: 0 <= i < |cs| ==> cs[i].JObj?
    ensures |r| == |cs|
    ensures forall i :: 0 <= i < |r| ==> r[i] == WithBirthday(cs[i])
  {
    if |cs| == 0 then []
    else [WithBirthday(cs[0])] + DefaultBirthdays(cs[1..])
  }

  /** `safeCustomers`: the objects with an `Id`, in order, each with its
      `Birthday` defaulted; nothing else is rendered. */
  function SafeCustomers(list: seq<Json>): (r: seq<Json>)
    ensures |r| == |KeepWith(list, ["Id"])|
    ensures forall i :: 0 <= i < |r| ==> r[i] == WithBirthday(KeepWith(list, ["Id"])[i])
    ensures forall i :: 0 <= i < |r| ==> Renderable(r[i])
  {
    var kept := KeepWith(list, ["Id"]);
    var r := DefaultBirthdays(kept);
    assert forall i :: 0 <= i < |r| ==> Renderable(r[i]) by {
      forall i | 0 <= i < |r| ensures Renderable(r[i]) {
        assert HasKey(kept[i], ["Id"][0]);
      }
    }
    r
  }

  /** A filter keeps a list whose entries all carry the keys unchanged. */
  lemma {:induction false} KeepWithAll(list: seq<Json>, keys: seq<string>)
    requires forall i :: 0 <= i < |list| ==> HasKeys(list[i], keys)
    ensures KeepWith(list, keys) == list
  {
    if |list| > 0 {
      KeepWithAll(list[1..], keys);
      assert list == [list[0]] + list[1..];
    }
  }

  /** A loaded list whose customers all carry an `Id` is rendered in full,
      in order, each customer with only its `Birthday` defaulted. */
  lemma LoadedListRendersInFull(outcome: Outcome, list: seq<Json>)
    requires list == LoadCustomers(outcome)
    requires forall i :: 0 <= i < |list| ==> list[i].JObj? && "Id" in list[i].fields
    ensures |SafeCustomers(list)| == |list|
    ensures forall i :: 0 <= i < |list| ==> SafeCustomers(list)[i] == WithBirthday(list[i])
  {
    RendersInFull(list);
  }

  /** A list whose entries all carry an `Id` is rendered in full, in order,
      each entry with its `Birthday` defaulted. */
  lemma RendersInFull(list: seq<Json>)
    requires forall i :: 0 <= i < |list| ==> list[i].JObj? && "Id" in list[i].fields
    ensures SafeCustomers(list) == DefaultBirthdays(list)
  {
    forall i | 0 <= i < |list| ensures HasKeys(list[i], ["Id"]) {
      assert ["Id"][0] == "Id";
    }
    KeepWithAll(list, ["Id"]);
  }

  // ---------------------------------------------------------------------
  // Searching

  datatype SearchKind = ByName | ByNationalId | ByPhone

  /** The gateway operation behind each search kind. */
  function SearchOp(kind: SearchKind): Op {
    match kind
    case ByName => CustomerByName
    case ByNationalId => CustomerByNationalId
    case ByPhone => CustomerByPhone
  }

  /** What the view does next: reload the whole list, or issue a search. */
  datatype Action = Reload | Query(kind: SearchKind, term: string)

  /** `handleSearch` up to the call: a blank term reloads the full list,
      anything else searches for the trimmed term. */
  function SearchAction(term: string, kind: SearchKind): (a: Action)
    ensures a.Reload? <==> AllSpace(term)
    ensures a.Query? ==> a.kind == kind && a.term == Trim(term) && |a.term| > 0
  {
    TrimEmptyIffAllSpace(term);
    var t := Trim(term);
    if t == "" then Reload else Query(kind, t)
  }

  datatype SearchResult = SearchResult(customers: seq<Json>, error: Option<string>)

  /** `handleSearch` after the call: the valid entries of the response, or
      an empty list and an error message when the call failed. */
  function SearchSettle(kind: SearchKind, outcome: Outcome): (r: SearchResult)
    ensures outcome.Err? ==> r == SearchResult([], Some(SearchFailed))
    ensures outcome.Ok? ==> r.error.None?
    ensures outcome.Ok? ==> r.customers == Entries(Respond(SearchOp(kind), outcome.body), ["Id"])
    ensures forall i :: 0 <= i < |r.customers| ==> HasKeys(r.customers[i], ["Id"])
  {
    match outcome
    case Err(_) => SearchResult([], Some(SearchFailed))
    case Ok(raw) => SearchResult(Entries(Respond(SearchOp(kind), raw), ["Id"]), None)
  }

  /** A search answered by a single record (not an array) shows that record
      alone if it has an `Id`, and nothing otherwise. */
  lemma SingleRecordSearch(kind: SearchKind, raw: Json)
    requires var resp := Respond(SearchOp(kind), raw);
      TruthyAt(resp, "data") && !resp.fields["data"].JArr?
    ensures var d := Respond(SearchOp(kind), raw).fields["data"];
      SearchSettle(kind, Ok(raw)).customers == (if HasKey(d, "Id") then [d] else [])
  {
    var d := Respond(SearchOp(kind), raw).fields["data"];
    assert HasKeys(d, ["Id"]) <==> HasKey(d, "Id") by {
      assert ["Id"][0] == "Id";
    }
    assert [d][1..] == [];
  }

  /** A search answered by an array shows exactly the array's objects that
      carry an `Id`, in their order, each as often as it occurs. */
  lemma ArraySearch(kind: SearchKind, raw: Json)
    requires var resp := Respond(SearchOp(kind), raw);
      HasKey(resp, "data") && resp.fields["data"].JArr?
    ensures var items := Respond(SearchOp(kind), raw).fields["data"].items;
      && SearchSettle(kind, Ok(raw)).customers == KeepWith(items, ["Id"])
      && forall x :: multiset(SearchSettle(kind, Ok(raw)).customers)[x]
                       == if HasKey(x, "Id") then multiset(items)[x] else 0
  {
    var resp := Respond(SearchOp(kind), raw);
    var items := resp.fields["data"].items;
    var shown := SearchSettle(kind, Ok(raw)).customers;
    assert shown == KeepWith(items, ["Id"]) by {
      assert TruthyAt(resp, "data");
      assert AsList(resp.fields["data"]) == items;
    }
    assert ["Id"][0] == "Id";
  }

  /** Everything a search shows survives the render filter: each shown
      customer is rendered, in order, with only its `Birthday` defaulted. */
  lemma SearchResultsAllRender(kind: SearchKind, outcome: Outcome)
    ensures var shown := SearchSettle(kind, outcome).customers;
      && |SafeCustomers(shown)| == |shown|
      && forall i :: 0 <= i < |shown| ==> SafeCustomers(shown)[i] == WithBirthday(shown[i])
  {
    var shown := SearchSettle(kind, outcome).customers;
    if outcome.Ok? {
      var resp := Respond(SearchOp(kind), outcome.body);
      if TruthyAt(resp, "data") {
        KeepWithIdempotent(AsList(resp.fields["data"]), ["Id"]);
      }
    }
    assert KeepWith(shown, ["Id"]) == shown;
  }

  /** A search whose response has no usable `data` shows an empty list and no
      error. */
  lemma EmptySearch(kind: SearchKind, raw: Json)
    requires !TruthyAt(Respond(SearchOp(kind), raw), "data")
    ensures SearchSettle(kind, Ok(raw)) == SearchResult([], None)
  {
  }

  // ---------------------------------------------------------------------
  // The debounce gate
  //
  // The view re-runs an effect whenever the search term or the search kind
  // changes. The effect first cancels the timer the previous run scheduled,
  // then reloads at once for a blank term, does nothing for a term shorter
  // than two characters after trimming, and otherwise schedules a search
  // 350 ms later. Time is abstracted into a `TimerFired` event; a pending
  // timer always searches with the term and kind current when it fires,
  // because any change cancels it first.

  const MinAutoLength := 2

  datatype Gate = Gate(term: string, kind: SearchKind, pending: bool)

  datatype Event =
    | Typed(text: string)
    | Selected(choice: SearchKind)
    | EnterPressed
    | TimerFired
    | ClearPressed

  /** The effect body for the current term. */
  function Effect(term: string, kind: SearchKind): (r: (bool, seq<Action>))
    ensures AllSpace(term) ==> r == (false, [Reload])
    ensures !AllSpace(term) && |Trim(term)| < MinAutoLength ==> r == (false, [])
    ensures |Trim(term)| >= MinAutoLength ==> r == (true, [])
  {
    TrimEmptyIffAllSpace(term);
    var t := Trim(term);
    if t == "" then (false, [Reload])
    else if |t| < MinAutoLength then (false, [])
    else (true, [])
  }

  /** A term or kind change: cancel the pending timer, run the effect. */
  function Rerun(term: string, kind: SearchKind): (r: (Gate, seq<Action>)) {
    var (pending, actions) := Effect(term, kind);
    (Gate(term, kind, pending), actions)
  }

  /** One event on the gate, with the actions it triggers in order. */
  function Step(g: Gate, e: Event): (r: (Gate, seq<Action>))
    ensures r.0.pending ==> |Trim(r.0.term)| >= MinAutoLength || (g.pending && r.0 == g)
  {
    match e
    case Typed(text) =>
      if text == g.term then (g, []) else Rerun(text, g.kind)
    case Selected(choice) =>
      if choice == g.kind then (g, []) else Rerun(g.term, choice)
    case EnterPressed =>
      (g, [SearchAction(g.term, g.kind)])
    case TimerFired =>
      if g.pending then (g.(pending := false), [SearchAction(g.term, g.kind)]) else (g, [])
    case ClearPressed =>
      if g.term == "" && g.kind == ByName then (g, [Reload])
      else
        var (g', actions) := Rerun("", ByName);
        (g', [Reload] + actions)
  }

  /** The view as it mounts: the mount effect loads the list, and the
      debounce effect's first run, on the empty term, loads it again. */
  function Mount(): (r: (Gate, seq<Action>))
    ensures r == (Gate("", ByName, false), [Reload, Reload])
  {
    var (g, actions) := Rerun("", ByName);
    assert actions == [Reload];
    assert [Reload] + actions == [Reload, Reload];
    (g, [Reload] + actions)
  }

  /** A timer is only ever pending for a term long enough to search. */
  predicate GateInvariant(g: Gate) {
    g.pending ==> |Trim(g.term)| >= MinAutoLength
  }

  lemma StepKeepsInvariant(g: Gate, e: Event)
    requires GateInvariant(g)
    ensures GateInvariant(Step(g, e).0)
  {
  }

  /** Runs a sequence of events, concatenating the actions. */
  function Run(g: Gate, events: seq<Event>): (r: (Gate, seq<Action>))
    decreases |events|
  {
    if |events| == 0 then (g, [])
    else
      var first := Step(g, events[0]);
      var rest := Run(first.0, events[1..]);
      (rest.0, first.1 + rest.1)
  }

  predicate LongTyping(events: seq<Event>) {
    forall i :: 0 <= i < |events| ==> events[i].Typed? && |Trim(events[i].text)| >= MinAutoLength
  }

  /** Any burst of keystrokes that each leave at least two characters issues
      no request while it lasts and leaves one timer pending for the last
      term. */
  lemma {:induction false} TypingOnlySchedules(g: Gate, events: seq<Event>)
    requires |events| > 0 && LongTyping(events)
    requires g.pending || events[0].text != g.term
    ensures Run(g, events) == (Gate(events[|events| - 1].text, g.kind, true), [])
    decreases |events|
  {
    var first := Gate(events[0].text, g.kind, true);
    var tail := events[1..];
    TypingStep(g, events);
    if |tail| == 0 {
      RunNothing(first, tail);
    } else {
      LongTypingTail(events);
      TypingOnlySchedules(first, tail);
      assert tail[|tail| - 1] == events[|events| - 1];
    }
  }

  lemma LongTypingTail(events: seq<Event>)
    requires |events| > 0 && LongTyping(events)
    ensures LongTyping(events[1..])
  {
    forall i | 0 <= i < |events| - 1
      ensures events[1..][i].Typed? && |Trim(events[1..][i].text)| >= MinAutoLength
    {
      assert events[1..][i] == events[i + 1];
    }
  }

  /** The first of those keystrokes only arms the timer for its own term. */
  lemma TypingStep(g: Gate, events: seq<Event>)
    requires |events| > 0 && events[0].Typed? && |Trim(events[0].text)| >= MinAutoLength
    requires g.pending || events[0].text != g.term
    ensures Run(g, events) == Run(Gate(events[0].text, g.kind, true), events[1..])
  {
    var first := Gate(events[0].text, g.kind, true);
    assert events[0] == Typed(events[0].text);
    LongKeystroke(g, events[0].text);
    RunCons(g, events);
    var rest := Run(first, events[1..]);
    assert [] + rest.1 == rest.1;
  }

  lemma RunNothing(g: Gate, events: seq<Event>)
    requires |events| == 0
    ensures Run(g, events) == (g, [])
  {
  }

  lemma RunOne(g: Gate, e: Event)
    ensures Run(g, [e]) == Step(g, e)
  {
    var s := Step(g, e);
    assert [e][1..] == [];
    assert Run(s.0, []) == (s.0, []);
    assert s.1 + [] == s.1;
  }

  lemma RunCons(g: Gate, events: seq<Event>)
    requires |events| > 0
    ensures var s := Step(g, events[0]);
      Run(g, events) == (Run(s.0, events[1..]).0, s.1 + Run(s.0, events[1..]).1)
  {
  }

  /** One keystroke that leaves at least two characters only (re)schedules
      the timer. */
  lemma LongKeystroke(g: Gate, text: string)
    requires |Trim(text)| >= MinAutoLength
    requires g.pending || text != g.term
    ensures Step(g, Typed(text)) == (Gate(text, g.kind, true), [])
  {
  }

  /** Keystrokes within the quantum followed by the timer issue exactly one
      search, for the last term. */
  lemma DebounceIssuesOneSearch(g: Gate, events: seq<Event>)
    requires |events| > 0 && LongTyping(events)
    requires g.pending || events[0].text != g.term
    ensures var last := events[|events| - 1].text;
      Run(g, events + [TimerFired]).1 == [Query(g.kind, Trim(last))]
  {
    var last := events[|events| - 1].text;
    var armed := Gate(last, g.kind, true);
    TypingOnlySchedules(g, events);
    RunAppend(g, events, [TimerFired]);
    RunOne(armed, TimerFired);
    assert |Trim(last)| >= MinAutoLength;
    TrimEmptyIffAllSpace(last);
    assert SearchAction(last, g.kind) == Query(g.kind, Trim(last));
    assert Run(g, events + [TimerFired]).1 == [] + [Query(g.kind, Trim(last))];
  }

  lemma {:induction false} RunAppend(g: Gate, a: seq<Event>, b: seq<Event>)
    ensures Run(g, a + b).0 == Run(Run(g, a).0, b).0
    ensures Run(g, a + b).1 == Run(g, a).1 + Run(Run(g, a).0, b).1
    decreases |a|
  {
    if |a| > 0 {
      assert (a + b)[0] == a[0];
      assert (a + b)[1..] == a[1..] + b;
      RunAppend(Step(g, a[0]).0, a[1..], b);
    } else {
      assert a + b == b;
    }
  }

  /** Clearing a non-empty input reloads at once, bypassing the delay and
      the two-character minimum, and cancels any pending timer. */
  lemma ClearingReloadsAtOnce(g: Gate)
    requires g.term != ""
    ensures var (g', actions) := Step(g, Typed(""));
      !g'.pending && actions == [Reload]
  {
  }

  /** A one-character term neither searches nor leaves a timer behind. */
  lemma ShortTermIsIgnored(g: Gate, text: string)
    requires text != g.term && |Trim(text)| == 1
    ensures var (g', actions) := Step(g, Typed(text));
      !g'.pending && actions == []
  {
    TrimEmptyIffAllSpace(text);
  }

  /** Enter searches at once for any non-blank term, even a one-character
      one, and leaves a pending timer alone. */
  lemma EnterSearchesAtOnce(g: Gate)
    requires !AllSpace(g.term)
    ensures var (g', actions) := Step(g, EnterPressed);
      g' == g && actions == [Query(g.kind, Trim(g.term))]
  {
  }
}

=== FILE: envelope.dfy ===
/** The client's response normaliser and its entity gateways.

    Every backend answer passes through `Normalize`, which reshapes the many
    response forms the backend uses into one envelope: an object whose
    `data` key holds the payload, or a pass-through object carrying only a
    `Message` (and, for login, a `token`). Each typed gateway operation then
    re-applies the alias field it knows about onto `data`. */
module Envelope {
  import opened Common
  import opened Text
  import opened JsonValue

  /** The entity-specific keys the backend may use instead of `data`, in the
      order the normaliser tries them. */
  const Aliases: seq<string> := ["customers", "customer", "citizenships", "citizenship", "histories", "history"]

  predicate NoAlias(m: map<string, Json>) {
    forall k :: k in Aliases ==> k !in m
  }

  /** Index of the first key of `keys` present in `m`; `|keys|` when none is. */
  function FirstPresent(m: map<string, Json>, keys: seq<string>): (i: nat)
    ensures i <= |keys|
    ensures forall j :: 0 <= j < i ==> keys[j] !in m
    ensures i < |keys| ==> keys[i] in m
  {
    if |keys| == 0 || keys[0] in m then 0 else 1 + FirstPresent(m, keys[1..])
  }

  /** `{Message: '', data: v}`. */
  function Wrap(v: Json): Json {
    JObj(map["Message" := JStr(""), "data" := v])
  }

  /** `m.Message ?? ''`. */
  function MessageOrEmpty(m: map<string, Json>): Json {
    if "Message" in m && m["Message"] != JNull then m["Message"] else JStr("")
  }

  /** The shape every normalised response has: an object that either carries
      `data`, or carries `Message` with neither `username` nor any alias. */
  predicate IsEnvelope(e: Json) {
    && e.JObj?
    && ("data" in e.fields
        || ("Message" in e.fields && "username" !in e.fields && NoAlias(e.fields)))
  }

  /** `normalizeApiResponse`: total, and always yields an envelope. */
  function Normalize(r: Json): (e: Json)
    ensures IsEnvelope(e)
    ensures "data" !in e.fields ==> e == r
  {
    match r
    case JArr(_) => Wrap(r)
    case JObj(m) =>
      if "data" in m then r
      else if "username" in m then Put(r, "data", m["username"])
      else if "Message" in m && NoAlias(m) then r
      else
        var i := FirstPresent(m, Aliases);
        if i < |Aliases| then Put(r, "data", m[Aliases[i]])
        else JObj(map["Message" := MessageOrEmpty(m), "data" := r])
    case _ => Wrap(r)
  }

  /** A bare array becomes `{Message: '', data: array}`. */
  lemma NormalizeArray(r: Json)
    requires r.JArr?
    ensures Normalize(r) == JObj(map["Message" := JStr(""), "data" := r])
  {
  }

  /** An object that already has `data` passes through untouched, whatever
      else it carries. */
  lemma NormalizeKeepsData(r: Json)
    requires HasKey(r, "data")
    ensures Normalize(r) == r
  {
  }

  /** An auth-shaped object keeps every field and gains `data = username`;
      this wins over `Message` and over every alias. */
  lemma NormalizeUsername(r: Json)
    requires HasKey(r, "username") && !HasKey(r, "data")
    ensures var e := Normalize(r);
      && e.fields.Keys == r.fields.Keys + {"data"}
      && e.fields["data"] == r.fields["username"]
      && forall k :: k in r.fields ==> e.fields[k] == r.fields[k]
  {
  }

  /** A message-only object (no data, no username, no alias) passes through,
      so a login `token` beside the `Message` survives and no `data` appears. */
  lemma NormalizeMessageOnly(r: Json)
    requires HasKey(r, "Message") && !HasKey(r, "data") && !HasKey(r, "username")
    requires NoAlias(r.fields)
    ensures Normalize(r) == r
    ensures !HasKey(Normalize(r), "data")
    ensures Get(Normalize(r), "token") == Get(r, "token")
  {
  }

  /** Otherwise the first alias present, in the fixed priority order, becomes
      `data` and every original key is kept. */
  lemma NormalizeAlias(r: Json, i: nat)
    requires r.JObj? && !HasKey(r, "data") && !HasKey(r, "username")
    requires i < |Aliases| && Aliases[i] in r.fields
    requires forall j :: 0 <= j < i ==> Aliases[j] !in r.fields
    ensures var e := Normalize(r);
      && e.fields.Keys == r.fields.Keys + {"data"}
      && e.fields["data"] == r.fields[Aliases[i]]
      && forall k :: k in r.fields ==> e.fields[k] == r.fields[k]
  {
    var m := r.fields;
    assert !NoAlias(m);
    var p := FirstPresent(m, Aliases);
    assert p <= i by {
      assert Aliases[i] in m;
    }
    assert p == i;
  }

  /** An object with none of the recognised keys is wrapped whole, under an
      empty `Message`: at that point it cannot carry a `Message` of its own. */
  lemma NormalizeFallbackObject(r: Json)
    requires r.JObj?
    requires forall k :: k in Aliases + ["data", "username", "Message"] ==> k !in r.fields
    ensures Normalize(r) == JObj(map["Message" := JStr(""), "data" := r])
  {
    assert Aliases[0] !in r.fields;
    assert FirstPresent(r.fields, Aliases) == |Aliases|;
  }

  /** Whenever the last branch is taken, `Message ?? ''` is the empty
      string: every object carrying `Message` left by an earlier branch. */
  lemma FallbackMessageIsEmpty(r: Json)
    requires r.JObj? && !HasKey(r, "data") && !HasKey(r, "username")
    requires FirstPresent(r.fields, Aliases) == |Aliases|
    ensures "Message" in r.fields ==> Normalize(r) == r
    ensures "Message" !in r.fields ==> Normalize(r) == JObj(map["Message" := JStr(""), "data" := r])
  {
  }

  /** Null, booleans, numbers and strings are wrapped as `data`. */
  lemma NormalizeScalar(r: Json)
    requires !r.JArr? && !r.JObj?
    ensures Normalize(r) == JObj(map["Message" := JStr(""), "data" := r])
  {
  }

  /** Envelopes are exactly the fixed points of the normaliser. */
  lemma EnvelopeIsFixedPoint(e: Json)
    ensures IsEnvelope(e) <==> Normalize(e) == e
  {
  }

  /** Normalising twice is normalising once. */
  lemma NormalizeIdempotent(r: Json)
    ensures Normalize(Normalize(r)) == Normalize(r)
  {
    EnvelopeIsFixedPoint(Normalize(r));
  }

  // ---------------------------------------------------------------------
  // Transport outcomes and the entity gateways

  /** What the transport hands back: a parsed body, or a thrown error with
      its message. */
  datatype Outcome = Ok(body: Json) | Err(message: string)

  /** The message `makeRequest` throws on a non-success HTTP status. */
  function HttpErrorText(status: int): (msg: string)
    ensures forall i :: 0 <= i < |msg| ==> msg[i] != 'N'
  {
    "HTTP error! status: " + IntToString(status)
  }

  /** The typed gateway operations. */
  datatype Op =
    | Login | Logout | Authenticate
    | ListCustomers | CreateCustomer | UpdateCustomer | DeleteCustomer
    | CustomerById | CustomerByNationalId | CustomerByName | CustomerByPhone
    | ListHistories | CreateHistory | UpdateHistory | DeleteHistory
    | HistoryById | HistoriesByCustomerId | HistoriesByDate | HistoriesByDateRange
    | ListCitizenships | CitizenshipById | CitizenshipByNation

  /** The alias field an operation copies onto `data`, if any. */
  function AliasOf(op: Op): (a: Option<string>)
    ensures a.Some? ==> a.value in Aliases
  {
    match op
    case ListCustomers | CustomerByName | CustomerByPhone => Some("customers")
    case CustomerById | CustomerByNationalId => Some("customer")
    case ListHistories | HistoriesByCustomerId | HistoriesByDate | HistoriesByDateRange => Some("histories")
    case HistoryById => Some("history")
    case ListCitizenships => Some("citizenships")
    case CitizenshipById | CitizenshipByNation => Some("citizenship")
    case _ => None
  }

  /** `if (response.alias) response.data = response.alias`. */
  function Override(e: Json, alias: string): Json
    requires e.JObj?
  {
    if TruthyAt(e, alias) then Put(e, "data", e.fields[alias]) else e
  }

  /** The normalised, alias-corrected response of one gateway operation. */
  function Respond(op: Op, raw: Json): (e: Json)
    ensures IsEnvelope(e)
  {
    var n := Normalize(raw);
    match AliasOf(op)
    case None => n
    case Some(a) => Override(n, a)
  }

  /** A gateway call: transport errors propagate, bodies are normalised. */
  function Call(op: Op, outcome: Outcome): (r: Outcome)
    ensures outcome.Err? ==> r == outcome
    ensures outcome.Ok? ==> r.Ok? && IsEnvelope(r.body)
    ensures outcome.Ok? ==> r == Ok(Respond(op, outcome.body))
  {
    match outcome
    case Ok(raw) => Ok(Respond(op, raw))
    case Err(msg) => Err(msg)
  }

  /** A truthy alias field wins: it becomes `data` even when the body
      already had `data`, a `username`, or an alias of higher priority. */
  lemma GatewayAliasWins(op: Op, raw: Json)
    requires AliasOf(op).Some? && TruthyAt(raw, AliasOf(op).value)
    ensures Get(Respond(op, raw), "data") == Some(raw.fields[AliasOf(op).value])
  {
    var a := AliasOf(op).value;
    var m := raw.fields;
    if "data" !in m && "username" !in m {
      assert !NoAlias(m);
      var n := Normalize(raw);
      var i := FirstPresent(m, Aliases);
      assert i < |Aliases|;
      assert n.fields.Keys >= m.Keys && n.fields[a] == m[a];
    }
  }

  /** Without a truthy alias field, a gateway answers what the normaliser
      answers. */
  lemma GatewayOtherwiseNormalizes(op: Op, raw: Json)
    requires AliasOf(op).None? || !TruthyAt(Normalize(raw), AliasOf(op).value)
    ensures Respond(op, raw) == Normalize(raw)
  {
  }

  /** For each alias, a body holding only that alias normalises, through
      every gateway, to `data` equal to the alias value. */
  lemma SingleAliasBody(op: Op, a: string, x: Json)
    requires a in Aliases
    ensures Get(Respond(op, JObj(map[a := x])), "data") == Some(x)
  {
    var r := JObj(map[a := x]);
    var i :| 0 <= i < |Aliases| && Aliases[i] == a;
    forall j | 0 <= j < i ensures Aliases[j] !in r.fields {
    }
    NormalizeAlias(r, i);
  }

  /** No status error text ever mentions `NationalId`. */
  lemma HttpErrorNeverNamesNationalId(status: int)
    ensures !Contains(HttpErrorText(status), "NationalId")
  {
    NoCharNoContains(HttpErrorText(status), "NationalId", 'N', 0);
  }
}

=== FILE: history_service.dfy ===
/** The backend's visit-history service, in the integer-id form it is
    written in: listing, lookups by customer, by date and by history id,
    and the guarded create, update and delete.

    The repository underneath is seen only through the behaviour the service
    relies on: a lookup that matches no row hands back the probe it was
    given, so an unknown customer comes back with an empty name and an
    unknown history with customer id 0; and a failing database makes every
    repository call return the same error. */
module HistoryService {
  import opened Common

  const NoCustomer := "error CRMS : There is no this customer"
  const NoHistory := "error CRMS : There is not any history"
  const NoVisitOn := "error CRMS : There was no customer in "
  const NoThisHistory := "error CRMS : There is no this history"
  const Incomplete := "error CRMS : History Info is incomplete"

  datatype History = History(
    historyId: int,
    customerId: int,
    date: string,
    numberOfPeople: int,
    price: int,
    room: string,
    note: string)

  datatype Customer = Customer(customerId: int, name: string)

  /** The stored rows, in storage order, and the error every repository
      call returns while the database is failing. */
  datatype Repo = Repo(customers: map<int, Customer>, histories: seq<History>, fault: Option<string>)

  /** What the stored rows always satisfy: customers are stored under their
      own non-zero id, history ids are positive and unique, and every
      history names a customer. */
  predicate Wf(repo: Repo) {
    && (forall id :: id in repo.customers ==> id != 0 && repo.customers[id].customerId == id)
    && (forall i :: 0 <= i < |repo.histories| ==>
          repo.histories[i].historyId > 0 && repo.histories[i].customerId != 0)
    && DistinctIds(repo.histories)
  }

  predicate DistinctIds(hs: seq<History>) {
    forall i, j :: 0 <= i < j < |hs| ==> hs[i].historyId != hs[j].historyId
  }

  // ---------------------------------------------------------------------
  // Repository behaviour

  /** A customer the repository knows: found, with a name. */
  predicate Known(repo: Repo, id: int) {
    id in repo.customers && repo.customers[id].name != ""
  }

  /** `repo.ExistCustomerId`: the stored customer, or the probe with an
      empty name when no row matches. */
  function ExistCustomerId(repo: Repo, id: int): (r: Result<Customer>)
    ensures repo.fault.Some? ==> r == Failure(repo.fault.value)
    ensures repo.fault.None? ==> r.Success? && (r.value.name != "" <==> Known(repo, id))
  {
    match repo.fault
    case Some(e) => Failure(e)
    case None => if id in repo.customers then Success(repo.customers[id]) else Success(Customer(id, ""))
  }

  /** The probe a history lookup by id hands back when no row matches. */
  function Unmatched(historyId: int): History {
    History(historyId, 0, "", 0, 0, "", "")
  }

  predicate HasId(hs: seq<History>, historyId: int) {
    exists i :: 0 <= i < |hs| && hs[i].historyId == historyId
  }

  /** The first stored row with the given id, or the unmatched probe. */
  function FindHistory(hs: seq<History>, historyId: int): (h: History)
    ensures h.historyId == historyId
    ensures HasId(hs, historyId) ==> h in hs
    ensures !HasId(hs, historyId) ==> h == Unmatched(historyId)
  {
    if |hs| == 0 then Unmatched(historyId)
    else if hs[0].historyId == historyId then hs[0]
    else
      var h := FindHistory(hs[1..], historyId);
      assert HasId(hs, historyId) ==> HasId(hs[1..], historyId) by {
        if HasId(hs, historyId) {
          var i :| 0 <= i < |hs| && hs[i].historyId == historyId;
          assert hs[1..][i - 1] == hs[i];
        }
      }
      h
  }

  /** The lookup returns the first row carrying the id, whatever rows with
      the same id follow it. */
  lemma {:induction false} FindHistoryIsFirst(hs: seq<History>, historyId: int, i: nat)
    requires i < |hs| && hs[i].historyId == historyId
    requires forall j :: 0 <= j < i ==> hs[j].historyId != historyId
    ensures FindHistory(hs, historyId) == hs[i]
  {
    if i > 0 {
      assert forall j :: 0 <= j < i - 1 ==> hs[1..][j] == hs[j + 1];
      FindHistoryIsFirst(hs[1..], historyId, i - 1);
    }
  }

  /** `Where(...).Find(...)`: the rows satisfying `keep`, in storage order. */
  function Select(hs: seq<History>, keep: History -> bool): (r: seq<History>)
    ensures |r| <= |hs|
    ensures forall i :: 0 <= i < |r| ==> keep(r[i]) && r[i] in hs
    ensures forall h :: multiset(r)[h] == if keep(h) then multiset(hs)[h] else 0
  {
    if |hs| == 0 then []
    else
      assert hs == [hs[0]] + hs[1..];
      var rest := Select(hs[1..], keep);
      if keep(hs[0]) then [hs[0]] + rest else rest
  }

  /** Selecting from one row keeps it exactly when it satisfies `keep`. */
  lemma SelectOne(h: History, keep: History -> bool)
    ensures Select([h], keep) == if keep(h) then [h] else []
  {
  }

  /** Selection keeps storage order: selecting from a concatenation
      concatenates the selections of the parts. */
  lemma {:induction false} SelectAppend(a: seq<History>, b: seq<History>, keep: History -> bool)
    ensures Select(a + b, keep) == Select(a, keep) + Select(b, keep)
  {
    if |a| == 0 {
      assert a + b == b;
    } else {
      assert (a + b)[1..] == a[1..] + b;
      SelectAppend(a[1..], b, keep);
    }
  }

  /** The selection is empty exactly when no row satisfies `keep`. */
  lemma {:induction false} SelectEmpty(hs: seq<History>, keep: History -> bool)
    ensures Select(hs, keep) == [] <==> forall i :: 0 <= i < |hs| ==> !keep(hs[i])
  {
    if |hs| > 0 {
      SelectEmpty(hs[1..], keep);
      assert forall i :: 1 <= i < |hs| ==> hs[i] == hs[1..][i - 1];
    }
  }

  /** The copy loop every listing ends with: `out = append(out, *point[i])`. */
  method CopyOut(point: seq<History>) returns (out: seq<History>)
    ensures |out| == |point|
    ensures forall i :: 0 <= i < |point| ==> out[i] == point[i]
  {
    out := [];
    var i := 0;
    while i < |point|
      invariant 0 <= i <= |point|
      invariant out == point[..i]
    {
      out := out + [point[i]];
      i := i + 1;
    }
  }

  // ---------------------------------------------------------------------
  // Queries

  /** `GetHistoryList`: every stored history in storage order, or the
      database error. */
  method GetHistoryList(repo: Repo) returns (r: Result<seq<History>>)
    ensures repo.fault.Some? ==> r == Failure(repo.fault.value)
    ensures repo.fault.None? ==> r == Success(repo.histories)
  {
    if repo.fault.Some? {
      return Failure(repo.fault.value);
    }
    var out := CopyOut(repo.histories);
    assert out == repo.histories;
    return Success(out);
  }

  /** `GetHistory`: the histories of one customer. An unknown customer and
      a customer without visits are errors, checked in that order. */
  function GetHistory(repo: Repo, customerId: int): (r: Result<seq<History>>)
    ensures repo.fault.Some? ==> r == Failure(repo.fault.value)
    ensures repo.fault.None? && !Known(repo, customerId) ==> r == Failure(NoCustomer)
    ensures r.Success? <==>
              repo.fault.None? && Known(repo, customerId)
              && exists i :: 0 <= i < |repo.histories| && repo.histories[i].customerId == customerId
    ensures r.Failure? && repo.fault.None? && Known(repo, customerId) ==> r.error == NoHistory
    ensures r.Success? ==> forall i :: 0 <= i < |r.value| ==> r.value[i].customerId == customerId
    ensures r.Success? ==> forall h :: h in repo.histories && h.customerId == customerId ==> h in r.value
    ensures r.Success? ==> r.value == Select(repo.histories, (h: History) => h.customerId == customerId)
  {
    var keep := (h: History) => h.customerId == customerId;
    match ExistCustomerId(repo, customerId)
    case Failure(e) => Failure(e)
    case Success(c) =>
      if c.name == "" then Failure(NoCustomer)
      else
        var point := Select(repo.histories, keep);
        SelectEmpty(repo.histories, keep);
        if |point| == 0 then Failure(NoHistory)
        else
          assert forall h :: h in repo.histories && keep(h) ==> multiset(point)[h] > 0;
          Success(point)
  }

  /** `GetHistoryForDate`: the histories on one date; none is an error that
      names the date. */
  function GetHistoryForDate(repo: Repo, date: string): (r: Result<seq<History>>)
    ensures repo.fault.Some? ==> r == Failure(repo.fault.value)
    ensures r.Success? <==>
              repo.fault.None? && exists i :: 0 <= i < |repo.histories| && repo.histories[i].date == date
    ensures r.Failure? && repo.fault.None? ==> r.error == NoVisitOn + date
    ensures r.Success? ==> forall i :: 0 <= i < |r.value| ==> r.value[i].date == date
    ensures r.Success? ==> forall h :: h in repo.histories && h.date == date ==> h in r.value
    ensures r.Success? ==> r.value == Select(repo.histories, (h: History) => h.date == date)
  {
    var keep := (h: History) => h.date == date;
    match repo.fault
    case Some(e) => Failure(e)
    case None =>
      var point := Select(repo.histories, keep);
      SelectEmpty(repo.histories, keep);
      if |point| == 0 then Failure(NoVisitOn + date)
      else
        assert forall h :: h in repo.histories && keep(h) ==> multiset(point)[h] > 0;
        Success(point)
  }

  /** `GetHistoryForHId`: one history by id; a row that names no customer
      counts as missing. */
  function GetHistoryForHId(repo: Repo, historyId: int): (r: Result<History>)
    ensures repo.fault.Some? ==> r == Failure(repo.fault.value)
    ensures repo.fault.None? && r.Failure? ==> r.error == NoThisHistory
    ensures r.Success? ==> r.value in repo.histories && r.value.historyId == historyId && r.value.customerId != 0
    ensures Wf(repo) ==> (r.Success? <==> repo.fault.None? && HasId(repo.histories, historyId))
  {
    match repo.fault
    case Some(e) => Failure(e)
    case None =>
      var h := FindHistory(repo.histories, historyId);
      if h.customerId == 0 then Failure(NoThisHistory) else Success(h)
  }

  /** Under the invariant a lookup by id finds the one row with that id. */
  lemma LookupFindsTheRow(repo: Repo, i: int)
    requires Wf(repo) && repo.fault.None? && 0 <= i < |repo.histories|
    ensures GetHistoryForHId(repo, repo.histories[i].historyId) == Success(repo.histories[i])
  {
    FindDistinct(repo.histories, i);
  }

  /** The tail of a list with distinct ids has distinct ids, none equal to
      the head's. */
  lemma DistinctTail(hs: seq<History>)
    requires |hs| > 0 && DistinctIds(hs)
    ensures DistinctIds(hs[1..])
    ensures forall g :: g in hs[1..] ==> g.historyId != hs[0].historyId
  {
    var tail := hs[1..];
    forall i, j | 0 <= i < j < |tail| ensures tail[i].historyId != tail[j].historyId {
      assert tail[i] == hs[i + 1] && tail[j] == hs[j + 1];
    }
    forall g | g in tail ensures g.historyId != hs[0].historyId {
      var m :| 0 <= m < |tail| && tail[m] == g;
      assert tail[m] == hs[m + 1];
    }
  }

  lemma {:induction false} FindDistinct(hs: seq<History>, i: int)
    requires DistinctIds(hs) && 0 <= i < |hs|
    ensures FindHistory(hs, hs[i].historyId) == hs[i]
  {
    if i > 0 {
      DistinctTail(hs);
      assert hs[1..][i - 1] == hs[i];
      FindDistinct(hs[1..], i - 1);
    }
  }

  // ---------------------------------------------------------------------
  // Commands

  /** The fields a history must carry to be stored. */
  predicate Complete(h: History) {
    h.customerId != 0 && h.date != "" && h.numberOfPeople != 0 && h.price != 0
  }

  /** One more than the largest stored id: never used yet. */
  function NextId(hs: seq<History>): (n: int)
    ensures n > 0
    ensures forall i :: 0 <= i < |hs| ==> hs[i].historyId < n
  {
    if |hs| == 0 then 1
    else
      var rest := NextId(hs[1..]);
      assert forall i :: 1 <= i < |hs| ==> hs[i] == hs[1..][i - 1];
      if hs[0].historyId + 1 > rest then hs[0].historyId + 1 else rest
  }

  /** `CreateHistory`: the customer must exist and the record be complete;
      the stored row gets a fresh id. On any error nothing is stored. */
  function CreateHistory(repo: Repo, h: History): (r: (Repo, Result<History>))
    ensures r.1.Success? <==> repo.fault.None? && Known(repo, h.customerId) && Complete(h)
    ensures repo.fault.Some? ==> r.1 == Failure(repo.fault.value)
    ensures repo.fault.None? && !Known(repo, h.customerId) ==> r.1 == Failure(NoCustomer)
    ensures repo.fault.None? && Known(repo, h.customerId) && !Complete(h) ==> r.1 == Failure(Incomplete)
    ensures r.1.Failure? ==> r.0 == repo
    ensures r.1.Success? ==>
              && r.1.value == h.(historyId := r.1.value.historyId)
              && !HasId(repo.histories, r.1.value.historyId) && r.1.value.historyId > 0
              && r.0 == repo.(histories := repo.histories + [r.1.value])
  {
    match ExistCustomerId(repo, h.customerId)
    case Failure(e) => (repo, Failure(e))
    case Success(c) =>
      if c.name == "" then (repo, Failure(NoCustomer))
      else if !Complete(h) then (repo, Failure(Incomplete))
      else
        var stored := h.(historyId := NextId(repo.histories));
        (repo.(histories := repo.histories + [stored]), Success(stored))
  }

  /** `UpdateHistory`: the history must exist (reported first), then the
      customer, then completeness; every row with that id is replaced. */
  function UpdateHistory(repo: Repo, h: History): (r: (Repo, Result<History>))
    ensures repo.fault.Some? ==> r.1 == Failure(repo.fault.value)
    ensures repo.fault.None? && GetHistoryForHId(repo, h.historyId).Failure? ==> r.1 == Failure(NoThisHistory)
    ensures r.1.Success? <==>
              && GetHistoryForHId(repo, h.historyId).Success?
              && Known(repo, h.customerId) && Complete(h)
    ensures repo.fault.None? && GetHistoryForHId(repo, h.historyId).Success? && !Known(repo, h.customerId)
            ==> r.1 == Failure(NoCustomer)
    ensures (repo.fault.None? && GetHistoryForHId(repo, h.historyId).Success?
             && Known(repo, h.customerId) && !Complete(h))
            ==> r.1 == Failure(Incomplete)
    ensures r.1.Failure? ==> r.0 == repo
    ensures r.1.Success? ==>
              && r.1.value == h
              && r.0.customers == repo.customers && r.0.fault == repo.fault
              && |r.0.histories| == |repo.histories|
              && forall i :: 0 <= i < |repo.histories| ==>
                   r.0.histories[i] == if repo.histories[i].historyId == h.historyId then h else repo.histories[i]
  {
    match ExistCustomerId(repo, h.customerId)
    case Failure(e) => (repo, Failure(e))
    case Success(c) =>
      match GetHistoryForHId(repo, h.historyId)
      case Failure(e) => (repo, Failure(e))
      case Success(_) =>
        if c.name == "" then (repo, Failure(NoCustomer))
        else if !Complete(h) then (repo, Failure(Incomplete))
        else
          var hs := seq(|repo.histories|, i requires 0 <= i < |repo.histories| =>
            if repo.histories[i].historyId == h.historyId then h else repo.histories[i]);
          (repo.(histories := hs), Success(h))
  }

  /** `DeleteHistory`: the history must exist; every row with that id is
      removed. The result is the error, if any. */
  function DeleteHistory(repo: Repo, historyId: int): (r: (Repo, Option<string>))
    ensures repo.fault.Some? ==> r.1 == Some(repo.fault.value)
    ensures r.1.None? <==> GetHistoryForHId(repo, historyId).Success?
    ensures r.1.Some? ==> r.1 == Some(GetHistoryForHId(repo, historyId).error)
    ensures repo.fault.None? && r.1.Some? ==> r.1 == Some(NoThisHistory)
    ensures r.1.Some? ==> r.0 == repo
    ensures r.1.None? ==>
              && r.0 == repo.(histories := r.0.histories)
              && !HasId(r.0.histories, historyId)
              && forall g :: g in repo.histories && g.historyId != historyId ==> g in r.0.histories
    ensures r.1.None? ==>
              forall g :: multiset(r.0.histories)[g]
                            == if g.historyId != historyId then multiset(repo.histories)[g] else 0
    ensures r.1.None? ==> r.0.histories == Select(repo.histories, (g: History) => g.historyId != historyId)
  {
    match GetHistoryForHId(repo, historyId)
    case Failure(e) => (repo, Some(e))
    case Success(_) =>
      var keep := (g: History) => g.historyId != historyId;
      var hs := Select(repo.histories, keep);
      assert forall g :: g in repo.histories && keep(g) ==> multiset(hs)[g] > 0;
      (repo.(histories := hs), None)
  }

  // ---------------------------------------------------------------------
  // Properties

  /** Creating keeps the invariant. */
  lemma CreateKeepsWf(repo: Repo, h: History)
    requires Wf(repo)
    ensures Wf(CreateHistory(repo, h).0)
  {
    var r := CreateHistory(repo, h);
    if r.1.Success? {
      var hs := r.0.histories;
      var n := |repo.histories|;
      forall i, j | 0 <= i < j < |hs| ensures hs[i].historyId != hs[j].historyId {
        if j == n {
          assert hs[i] == repo.histories[i];
        } else {
          assert hs[i] == repo.histories[i] && hs[j] == repo.histories[j];
        }
      }
    }
  }

  /** Updating keeps the invariant. */
  lemma UpdateKeepsWf(repo: Repo, h: History)
    requires Wf(repo)
    ensures Wf(UpdateHistory(repo, h).0)
  {
  }

  /** Deleting keeps the invariant. */
  lemma DeleteKeepsWf(repo: Repo, historyId: int)
    requires Wf(repo)
    ensures Wf(DeleteHistory(repo, historyId).0)
  {
    var r := DeleteHistory(repo, historyId);
    if r.1.None? {
      SelectKeepsDistinct(repo.histories, (g: History) => g.historyId != historyId);
    }
  }

  lemma {:induction false} SelectKeepsDistinct(hs: seq<History>, keep: History -> bool)
    requires DistinctIds(hs)
    ensures DistinctIds(Select(hs, keep))
  {
    if |hs| > 0 {
      DistinctTail(hs);
      SelectKeepsDistinct(hs[1..], keep);
      if keep(hs[0]) {
        DistinctCons(hs[0], Select(hs[1..], keep));
      }
    }
  }

  lemma DistinctCons(x: History, rest: seq<History>)
    requires DistinctIds(rest)
    requires forall k :: 0 <= k < |rest| ==> rest[k].historyId != x.historyId
    ensures DistinctIds([x] + rest)
  {
    var r := [x] + rest;
    forall i, j | 0 <= i < j < |r| ensures r[i].historyId != r[j].historyId {
      assert r[j] == rest[j - 1];
      if i > 0 {
        assert r[i] == rest[i - 1];
      }
    }
  }

  /** A created history can be read back by its new id. */
  lemma CreateThenRead(repo: Repo, h: History)
    requires Wf(repo) && CreateHistory(repo, h).1.Success?
    ensures var (repo', r) := CreateHistory(repo, h);
      GetHistoryForHId(repo', r.value.historyId) == Success(r.value)
  {
    var (repo', r) := CreateHistory(repo, h);
    CreateKeepsWf(repo, h);
    LookupFindsTheRow(repo', |repo.histories|);
  }

  /** An updated history reads back as the submitted record. */
  lemma UpdateThenRead(repo: Repo, h: History)
    requires Wf(repo) && UpdateHistory(repo, h).1.Success?
    ensures GetHistoryForHId(UpdateHistory(repo, h).0, h.historyId) == Success(h)
  {
    var repo' := UpdateHistory(repo, h).0;
    UpdateKeepsWf(repo, h);
    var i :| 0 <= i < |repo.histories| && repo.histories[i].historyId == h.historyId;
    assert repo'.histories[i] == h;
    LookupFindsTheRow(repo', i);
  }

  /** A deleted history is gone. */
  lemma DeleteThenRead(repo: Repo, historyId: int)
    requires Wf(repo) && DeleteHistory(repo, historyId).1.None?
    ensures GetHistoryForHId(DeleteHistory(repo, historyId).0, historyId) == Failure(NoThisHistory)
  {
    DeleteKeepsWf(repo, historyId);
  }

  /** With the invariant, a zero customer id is reported as an unknown
      customer: the completeness check on the customer id never fires. */
  lemma ZeroCustomerIsUnknown(repo: Repo, h: History)
    requires Wf(repo) && repo.fault.None? && h.customerId == 0
    ensures CreateHistory(repo, h).1 == Failure(NoCustomer)
    ensures UpdateHistory(repo, h).1 == Failure(if HasId(repo.histories, h.historyId) then NoCustomer else NoThisHistory)
  {
  }

  /** An update naming both an unknown history and an unknown customer is
      reported as an unknown history. */
  lemma UpdateReportsHistoryFirst(repo: Repo, h: History)
    requires repo.fault.None? && !Known(repo, h.customerId) && !HasId(repo.histories, h.historyId)
    ensures UpdateHistory(repo, h).1 == Failure(NoThisHistory)
  {
  }

  /** A created history shows up in its customer's history list. */
  lemma CreateThenList(repo: Repo, h: History)
    requires CreateHistory(repo, h).1.Success?
    ensures var (repo', r) := CreateHistory(repo, h);
      GetHistory(repo', h.customerId).Success? && r.value in GetHistory(repo', h.customerId).value
  {
    var (repo', r) := CreateHistory(repo, h);
    assert repo'.histories[|repo.histories|] == r.value;
  }

  /** A created history is listed last among the histories on its date,
      after those stored before it, which keep their order. */
  lemma CreateThenListByDate(repo: Repo, h: History)
    requires CreateHistory(repo, h).1.Success?
    ensures var (repo', r) := CreateHistory(repo, h);
      GetHistoryForDate(repo', h.date)
        == Success(Select(repo.histories, (g: History) => g.date == h.date) + [r.value])
  {
    var (repo', r) := CreateHistory(repo, h);
    var keep := (g: History) => g.date == h.date;
    SelectAppend(repo.histories, [r.value], keep);
    SelectOne(r.value, keep);
    assert repo'.histories[|repo.histories|] == r.value;
  }
}

=== FILE: history_view.dfy ===
/** The visit-history view: loading the list, the guarded search by date,
    by date range or by customer, the well-formedness filter every shown
    entry passes, and the date the edit form is prefilled with. */
module HistoryView {
  import opened Common
  import opened Text
  import opened JsonValue
  import opened Envelope
  import opened CustomerView
  import opened CustomerForm

  /** The keys an entry must carry to be shown. */
  const IdentityKeys: seq<string> := ["Id", "CustomerId"]

  const NoDate := "Please select a date."
  const NoRange := "Please select both start and end dates."
  const BadRange := "Start date must be before end date."
  const NoCustomer := "Please choose a customer."

  // ---------------------------------------------------------------------
  // Shaping the list

  /** `{...h, Date: h.Date || ''}`. */
  function WithDate(h: Json): (r: Json)
    requires h.JObj?
    ensures r.JObj? && r.fields.Keys == h.fields.Keys + {"Date"}
    ensures forall k :: k in h.fields && k != "Date" ==> r.fields[k] == h.fields[k]
    ensures TruthyAt(h, "Date") ==> r.fields["Date"] == h.fields["Date"]
    ensures !TruthyAt(h, "Date") ==> r.fields["Date"] == JStr("")
  {
    Put(h, "Date", if TruthyAt(h, "Date") then h.fields["Date"] else JStr(""))
  }

  /** An entry as the view shows it: it carries both identity keys, and its
      `Date` is either truthy or the empty string. */
  predicate Shown(h: Json) {
    && HasKey(h, "Id") && HasKey(h, "CustomerId") && HasKey(h, "Date")
    && (Truthy(h.fields["Date"]) || h.fields["Date"] == JStr(""))
  }

  lemma IdentityKeysAreKeys(h: Json)
    ensures HasKeys(h, IdentityKeys) <==> HasKey(h, "Id") && HasKey(h, "CustomerId")
  {
    assert IdentityKeys[0] == "Id" && IdentityKeys[1] == "CustomerId";
  }

  /** An entry that passes the filter is shown once its date is defaulted. */
  lemma KeptIsShown(h: Json)
    requires HasKeys(h, IdentityKeys)
    ensures h.JObj? && Shown(WithDate(h))
  {
    IdentityKeysAreKeys(h);
  }

  /** `list.map(h => ({...h, Date: h.Date || ''}))` on objects. */
  function DefaultDates(list: seq<Json>): (r: seq<Json>)
    requires forall i :: 0 <= i < |list| ==> list[i].JObj?
    ensures |r| == |list|
  {
    seq(|list|, i requires 0 <= i < |list| => WithDate(list[i]))
  }

  /** The filter followed by the `Date` default, applied to a raw list. */
  function Prepare(list: seq<Json>): (r: seq<Json>)
    ensures |r| == |KeepWith(list, IdentityKeys)|
    ensures forall i :: 0 <= i < |r| ==> Shown(r[i])
    ensures forall i :: 0 <= i < |r| ==> r[i] == WithDate(KeepWith(list, IdentityKeys)[i])
  {
    var kept := KeepWith(list, IdentityKeys);
    assert forall i :: 0 <= i < |kept| ==> kept[i].JObj? && Shown(WithDate(kept[i])) by {
      forall i | 0 <= i < |kept| ensures kept[i].JObj? && Shown(WithDate(kept[i])) {
        KeptIsShown(kept[i]);
      }
    }
    DefaultDates(kept)
  }

  /** The list shown for a response: its prepared `data`, or nothing when
      `data` is missing or falsy. */
  function ShownList(resp: Json): (r: seq<Json>)
    ensures !TruthyAt(resp, "data") ==> r == []
    ensures TruthyAt(resp, "data") ==> r == Prepare(AsList(resp.fields["data"]))
  {
    if TruthyAt(resp, "data") then Prepare(AsList(resp.fields["data"])) else []
  }

  /** Defaulting a date twice is defaulting it once. */
  lemma WithDateIdempotent(h: Json)
    requires h.JObj?
    ensures WithDate(WithDate(h)) == WithDate(h)
  {
    var w := WithDate(h);
    assert WithDate(w).fields == w.fields;
  }

  /** Every shown entry already passes the filter. */
  lemma {:induction false} KeepShown(list: seq<Json>)
    requires forall i :: 0 <= i < |list| ==> Shown(list[i])
    ensures KeepWith(list, IdentityKeys) == list
  {
    if |list| > 0 {
      IdentityKeysAreKeys(list[0]);
      KeepShown(list[1..]);
      assert list == [list[0]] + list[1..];
    }
  }

  /** Preparing is idempotent: a shown list is a fixed point, so rendering a
      list that came back through the same filter changes nothing. */
  lemma PrepareIdempotent(list: seq<Json>)
    ensures Prepare(Prepare(list)) == Prepare(list)
  {
    var kept := KeepWith(list, IdentityKeys);
    var p := Prepare(list);
    KeepShown(p);
    var q := Prepare(p);
    assert |q| == |p|;
    forall i | 0 <= i < |p| ensures q[i] == p[i] {
      assert q[i] == WithDate(p[i]);
      assert p[i] == WithDate(kept[i]);
      WithDateIdempotent(kept[i]);
    }
  }

  // ---------------------------------------------------------------------
  // The view state and loading

  datatype ViewState = ViewState(
    histories: seq<Json>,
    searchError: Option<string>,
    searching: bool,
    loading: bool)

  /** The state as the view mounts. */
  const Initial := ViewState([], None, false, true)

  /** `loadHistories`: a successful call replaces the list; a failed call
      leaves the list as it was. Loading ends either way. */
  function LoadHistories(s: ViewState, outcome: Outcome): (r: ViewState)
    ensures !r.loading
    ensures r.searchError == s.searchError && r.searching == s.searching
    ensures outcome.Err? ==> r.histories == s.histories
    ensures outcome.Ok? ==> r.histories == ShownList(Respond(ListHistories, outcome.body))
    ensures forall i :: 0 <= i < |r.histories| ==> r.histories[i] in s.histories || Shown(r.histories[i])
  {
    match outcome
    case Err(_) => s.(loading := false)
    case Ok(raw) => s.(histories := ShownList(Respond(ListHistories, raw)), loading := false)
  }

  // ---------------------------------------------------------------------
  // Searching

  datatype HistoryKind = All | OnDate | InRange | ForCustomer

  /** The search controls: which kind, and the values of the inputs. */
  datatype Criteria = Criteria(kind: HistoryKind, date: string, start: string, end: string, customerId: string)

  /** What `handleSearch` decides before any call: reject with a message,
      call one filtered endpoint, or reload everything. */
  datatype Plan = Refused(message: string) | Fetch(op: Op, args: seq<string>) | ReloadAll

  /** The guards of `handleSearch`. An input counts as given when it is a
      non-empty string; the range check compares the two dates as strings. */
  function SearchPlan(c: Criteria): (p: Plan)
    ensures p.ReloadAll? <==> c.kind == All
    ensures c.kind == OnDate ==> (p.Refused? <==> c.date == "")
    ensures c.kind == OnDate && p.Refused? ==> p.message == NoDate
    ensures c.kind == OnDate && p.Fetch? ==> p == Fetch(HistoriesByDate, [c.date])
    ensures c.kind == InRange ==> (p.Refused? <==> c.start == "" || c.end == "" || StrLess(c.end, c.start))
    ensures c.kind == InRange && p.Refused? ==>
              p.message == (if c.start == "" || c.end == "" then NoRange else BadRange)
    ensures c.kind == InRange && p.Fetch? ==> p == Fetch(HistoriesByDateRange, [c.start, c.end])
    ensures c.kind == ForCustomer ==> (p.Refused? <==> c.customerId == "")
    ensures c.kind == ForCustomer && p.Refused? ==> p.message == NoCustomer
    ensures c.kind == ForCustomer && p.Fetch? ==> p == Fetch(HistoriesByCustomerId, [c.customerId])
  {
    match c.kind
    case OnDate =>
      if c.date == "" then Refused(NoDate) else Fetch(HistoriesByDate, [c.date])
    case InRange =>
      if c.start == "" || c.end == "" then Refused(NoRange)
      else if StrLess(c.end, c.start) then Refused(BadRange)
      else Fetch(HistoriesByDateRange, [c.start, c.end])
    case ForCustomer =>
      if c.customerId == "" then Refused(NoCustomer) else Fetch(HistoriesByCustomerId, [c.customerId])
    case All => ReloadAll
  }

  /** A one-day range, start equal to end, is accepted. */
  lemma OneDayRangeAccepted(c: Criteria)
    requires c.kind == InRange && c.start != "" && c.start == c.end
    ensures SearchPlan(c) == Fetch(HistoriesByDateRange, [c.start, c.start])
  {
    StrLessIrreflexive(c.start);
  }

  /** A whole `handleSearch`, given the outcome of the one call it makes
      (ignored when the guards reject). The searching flag is always cleared
      at the end, also after a rejection. */
  function Search(s: ViewState, c: Criteria, outcome: Outcome): (r: ViewState)
    ensures !r.searching
    ensures SearchPlan(c).Refused? ==>
              r == s.(searchError := Some(SearchPlan(c).message), searching := false)
    ensures SearchPlan(c).Fetch? && outcome.Err? ==>
              r == s.(histories := [], searchError := Some(SearchFailed), searching := false)
    ensures SearchPlan(c).Fetch? && outcome.Ok? ==>
              r == s.(histories := ShownList(Respond(SearchPlan(c).op, outcome.body)),
                      searchError := None, searching := false)
    ensures SearchPlan(c).ReloadAll? ==>
              r == LoadHistories(s, outcome).(searchError := None, searching := false)
    ensures forall i :: 0 <= i < |r.histories| ==> r.histories[i] in s.histories || Shown(r.histories[i])
  {
    var cleared := s.(searchError := None, searching := true);
    match SearchPlan(c)
    case Refused(msg) => cleared.(searchError := Some(msg), searching := false)
    case ReloadAll => LoadHistories(cleared, outcome).(searching := false)
    case Fetch(op, _) =>
      match outcome
      case Err(_) => cleared.(searchError := Some(SearchFailed), histories := [], searching := false)
      case Ok(raw) => cleared.(histories := ShownList(Respond(op, raw)), searching := false)
  }

  /** A failed filtered search empties the list, while a failed reload of
      the whole list keeps what was shown and reports nothing. */
  lemma FailedSearchVersusFailedReload(s: ViewState, c: Criteria, msg: string)
    requires SearchPlan(c).Fetch? || c.kind == All
    ensures c.kind == All ==> Search(s, c, Err(msg)).histories == s.histories
                              && Search(s, c, Err(msg)).searchError.None?
    ensures c.kind != All ==> Search(s, c, Err(msg)).histories == []
                              && Search(s, c, Err(msg)).searchError == Some(SearchFailed)
  {
  }

  /** A rejected search neither calls the server nor touches the list, and
      a later valid search clears the message. */
  lemma RejectionThenRetry(s: ViewState, bad: Criteria, good: Criteria, outcome: Outcome)
    requires SearchPlan(bad).Refused? && !SearchPlan(good).Refused?
    ensures Search(s, bad, outcome).histories == s.histories
    ensures Search(s, bad, outcome) == Search(s, bad, Err(""))
    ensures outcome.Ok? ==> Search(Search(s, bad, outcome), good, outcome).searchError.None?
  {
  }

  // ---------------------------------------------------------------------
  // Editing

  /** The `Date` the edit form starts with: `(h.Date || '').split('T')[0]`.
      `None` stands for the type error a truthy non-string would raise. */
  function EditDate(d: Json): (r: Option<string>)
    ensures !Truthy(d) ==> r == Some("")
    ensures d.JStr? ==> r.Some?
    ensures Truthy(d) && !d.JStr? ==> r.None?
    ensures r.Some? ==> forall i :: 0 <= i < |r.value| ==> r.value[i] != 'T'
    ensures d.JStr? && r.Some? ==> |r.value| <= |d.s| && d.s[..|r.value|] == r.value
    ensures d.JStr? && r.Some? && |r.value| < |d.s| ==> d.s[|r.value|] == 'T' 
  {
    if !Truthy(d) then Some("")
    else if d.JStr? then Some(DatePart(d.s))
    else None
  }

  /** A timestamp `day + "T" + time` is cut back to `day`, whatever the
      time part holds. */
  lemma EditDateOfTimestamp(day: string, time: string)
    requires day != "" && forall i :: 0 <= i < |day| ==> day[i] != 'T'
    ensures EditDate(JStr(day + "T" + time)) == Some(day)
  {
    DatePartStopsAtT(day, time);
  }

  lemma {:induction false} DatePartStopsAtT(day: string, time: string)
    requires forall i :: 0 <= i < |day| ==> day[i] != 'T'
    ensures DatePart(day + "T" + time) == day
  {
    var s := day + "T" + time;
    if |day| > 0 {
      assert s[0] == day[0];
      assert s[1..] == day[1..] + "T" + time;
      DatePartStopsAtT(day[1..], time);
      assert day == [day[0]] + day[1..];
    }
  }
}

=== FILE: json.dfy ===
/** JSON values as the client receives them from the transport, with the
    JavaScript operations the client applies to them: truthiness, key
    presence (`'k' in v`), property read and `String(v)` coercion. */
module JsonValue {
  import opened Common
  import opened Text

  /** Numbers are integers here: the client never does arithmetic on them. */
  datatype Json =
    | JNull
    | JBool(b: bool)
    | JNum(n: int)
    | JStr(s: string)
    | JArr(items: seq<Json>)
    | JObj(fields: map<string, Json>)

  /** JavaScript truthiness: `null`, `false`, `0` and `""` are falsy; every
      array and every object, even an empty one, is truthy. */
  predicate Truthy(v: Json) {
    match v
    case JNull => false
    case JBool(b) => b
    case JNum(n) => n != 0
    case JStr(s) => s != ""
    case JArr(_) => true
    case JObj(_) => true
  }

  /** `v && typeof v === 'object' && k in v`: an object that owns key `k`.
      Arrays never carry the string keys the client asks about. */
  predicate HasKey(v: Json, k: string) {
    v.JObj? && k in v.fields
  }

  /** `v[k]` on an object; `None` stands for `undefined`. */
  function Get(v: Json, k: string): (r: Option<Json>)
    ensures r.Some? <==> HasKey(v, k)
    ensures r.Some? ==> r.value == v.fields[k]
  {
    if HasKey(v, k) then Some(v.fields[k]) else None
  }

  /** Truthiness of a property read, `undefined` being falsy. */
  predicate TruthyAt(v: Json, k: string) {
    HasKey(v, k) && Truthy(v.fields[k])
  }

  /** `{...o, k: x}` for an object `o`. */
  function Put(o: Json, k: string, x: Json): (r: Json)
    requires o.JObj?
    ensures r.JObj? && r.fields.Keys == o.fields.Keys + {k}
    ensures r.fields[k] == x
    ensures forall j :: j in o.fields && j != k ==> r.fields[j] == o.fields[j]
  {
    JObj(o.fields[k := x])
  }

  /** `Array.isArray(v) ? v : [v]`. */
  function AsList(v: Json): (r: seq<Json>)
    ensures v.JArr? ==> r == v.items
    ensures !v.JArr? ==> r == [v]
  {
    if v.JArr? then v.items else [v]
  }

  /** `String(v)`: how `localStorage.setItem` stores a non-string value.
      Inside an array, `null` renders as the empty string. */
  function Render(v: Json): string
    decreases v
  {
    match v
    case JNull => "null"
    case JBool(b) => if b then "true" else "false"
    case JNum(n) => IntToString(n)
    case JStr(s) => s
    case JArr(items) =>
      Join(seq(|items|, i requires 0 <= i < |items| => if items[i].JNull? then "" else Render(items[i])), ",")
    case JObj(_) => "[object Object]"
  }
}

=== FILE: text.dfy ===
/** String helpers with the semantics of the JavaScript built-ins the client
    relies on: `String.prototype.trim`, the regular-expression class `\s`,
    `includes`, relational comparison of strings and ASCII upper-casing. */
module Text {

  /** JavaScript's WhiteSpace and LineTerminator code points: the set that
      `trim` strips and that `\s` matches. */
  predicate IsSpace(c: char) {
    || c == '\t' || c == '\n' || c == '\U{000B}' || c == '\U{000C}' || c == '\r'
    || c == ' ' || c == '\U{00A0}' || c == '\U{1680}'
    || ('\U{2000}' <= c <= '\U{200A}')
    || c == '\U{2028}' || c == '\U{2029}' || c == '\U{202F}' || c == '\U{205F}'
    || c == '\U{3000}' || c == '\U{FEFF}'
  }

  predicate AllSpace(s: string) {
    forall i :: 0 <= i < |s| ==> IsSpace(s[i])
  }

  /** Drops leading white space. */
  function TrimStart(s: string): (r: string)
    ensures |r| <= |s| && r == s[|s| - |r|..]
    ensures AllSpace(s[..|s| - |r|])
    ensures |r| > 0 ==> !IsSpace(r[0])
  {
    if |s| > 0 && IsSpace(s[0]) then TrimStart(s[1..]) else s
  }

  /** Drops trailing white space. */
  function TrimEnd(s: string): (r: string)
    ensures |r| <= |s| && r == s[..|r|]
    ensures AllSpace(s[|r|..])
    ensures |r| > 0 ==> !IsSpace(r[|r| - 1])
  {
    if |s| > 0 && IsSpace(s[|s| - 1]) then TrimEnd(s[..|s| - 1]) else s
  }

  /** `s.trim()`: drops white space from both ends, so that what is left
      neither starts nor ends with white space. */
  function Trim(s: string): (r: string)
    ensures |r| <= |s|
    ensures |r| > 0 ==> !IsSpace(r[0]) && !IsSpace(r[|r| - 1])
  {
    TrimEnd(TrimStart(s))
  }

  /** Trimming removes nothing but white space: the result is an infix of
      the input with only white space on either side of it. */
  lemma TrimIsInfix(s: string)
    ensures exists i :: 0 <= i <= |s| - |Trim(s)| && Trim(s) == s[i..i + |Trim(s)|]
                        && AllSpace(s[..i]) && AllSpace(s[i + |Trim(s)|..])
  {
    var t := TrimStart(s);
    var r := TrimEnd(t);
    var i := |s| - |t|;
    assert r == s[i..i + |r|];
    assert s[i + |r|..] == t[|r|..];
  }

  /** The two readings of "blank" used by the client agree: trimming leaves
      nothing exactly when every character is white space. */
  lemma {:induction false} TrimEmptyIffAllSpace(s: string)
    ensures Trim(s) == "" <==> AllSpace(s)
  {
    if AllSpace(s) {
      AllSpaceTrimsAway(s);
    }
    if Trim(s) == "" {
      TrimIsInfix(s);
      var i :| 0 <= i <= |s| && AllSpace(s[..i]) && AllSpace(s[i..]);
      forall j | 0 <= j < |s| ensures IsSpace(s[j]) {
        if j < i { assert s[..i][j] == s[j]; } else { assert s[i..][j - i] == s[j]; }
      }
    }
  }

  lemma {:induction false} AllSpaceTrimsAway(s: string)
    requires AllSpace(s)
    ensures TrimStart(s) == ""
  {
    if |s| > 0 {
      AllSpaceTrimsAway(s[1..]);
    }
  }

  /** `s.includes(needle)`. */
  predicate Contains(s: string, needle: string) {
    exists i :: 0 <= i <= |s| - |needle| && OccursAt(s, needle, i)
  }

  predicate OccursAt(s: string, needle: string, i: int)
    requires 0 <= i <= |s| - |needle|
  {
    s[i..i + |needle|] == needle
  }

  /** JavaScript's `a < b` on two strings: lexicographic on characters, a
      proper prefix being smaller. */
  predicate StrLess(a: string, b: string) {
    if |a| == 0 then |b| > 0
    else if |b| == 0 then false
    else if a[0] != b[0] then a[0] < b[0]
    else StrLess(a[1..], b[1..])
  }

  /** String comparison is irreflexive, so `start > end` never rejects two
      equal dates. */
  lemma {:induction false} StrLessIrreflexive(a: string)
    ensures !StrLess(a, a)
  {
    if |a| > 0 {
      StrLessIrreflexive(a[1..]);
    }
  }

  /** `toUpperCase` restricted to the ASCII letters. It decides the
      comparison with `TWN` exactly: no other code point upper-cases to a
      string made only of the letters T, W and N. */
  function UpperAscii(s: string): (r: string)
    ensures |r| == |s|
    ensures forall i :: 0 <= i < |s| ==> r[i] == (if 'a' <= s[i] <= 'z' then s[i] - 'a' + 'A' else s[i])
  {
    if |s| == 0 then ""
    else [if 'a' <= s[0] <= 'z' then s[0] - 'a' + 'A' else s[0]] + UpperAscii(s[1..])
  }

  predicate IsAsciiLetter(c: char) {
    ('A' <= c <= 'Z') || ('a' <= c <= 'z')
  }

  predicate IsDigit(c: char) {
    '0' <= c <= '9'
  }

  /** Decimal rendering of a natural number, as JavaScript's `String(n)`. */
  function NatToString(n: nat): (r: string)
    ensures |r| > 0
    ensures forall i :: 0 <= i < |r| ==> IsDigit(r[i])
  {
    if n < 10 then ["0123456789"[n]] else NatToString(n / 10) + ["0123456789"[n % 10]]
  }

  function IntToString(i: int): (r: string)
    ensures |r| > 0
    ensures i >= 0 ==> forall k :: 0 <= k < |r| ==> IsDigit(r[k])
    ensures i < 0 ==> r[0] == '-' && forall k :: 1 <= k < |r| ==> IsDigit(r[k])
  {
    if i < 0 then "-" + NatToString(-i) else NatToString(i)
  }

  /** `parts.join(sep)`. */
  function Join(parts: seq<string>, sep: string): string {
    if |parts| == 0 then ""
    else if |parts| == 1 then parts[0]
    else parts[0] + sep + Join(parts[1..], sep)
  }

  /** A string in which a character never occurs cannot contain a needle
      that has that character. */
  lemma NoCharNoContains(s: string, needle: string, c: char, k: int)
    requires 0 <= k < |needle| && needle[k] == c
    requires forall i :: 0 <= i < |s| ==> s[i] != c
    ensures !Contains(s, needle)
  {
    forall i | 0 <= i <= |s| - |needle| ensures !OccursAt(s, needle, i) {
      assert s[i..i + |needle|][k] == s[i + k];
    }
  }
}
